=== FILE: README.md ===
# monitoring_serv in Dafny

A functional model of the decision logic of monitoring_serv, a desktop
server monitor. It has a Go back end (`app.go`, `backend/`) and a React
settings panel (`frontend/src/components/Settings.jsx`). The model covers:

- the server registry and its validation, as a `map<string, Server>`, and the monitor lock as far as it decides whether a call returns;
- the HTTP, TCP and ping probes, and their classification into a `ServerStatus`;
- duration strings (`parseDuration`) and the 30-second and 10-second fallbacks of the monitoring loop;
- the monitoring goroutine's first check and its per-tick alert state machine;
- the desktop notifier's per-name cooldown gate;
- the settings file, its defaults, and the branches of `LoadSettings`;
- the two save entry points, the notification-mode mapping, the SMTP restart condition and the provider presets;
- the embedded SMTP session:
  - the envelope it collects;
  - the `Data` header/body splitter;
  - what is forwarded through the configured relay;
- the settings panel:
  - load validation;
  - change detection;
  - the numeric input handlers;
  - reset, provider selection, SMTP test, cancel and save.

Clock readings, probe answers, file contents and back-end replies are all
inputs to the model:

- A clock reading is an `int` of nanoseconds, or of milliseconds for elapsed time.
- What the network answers is a `Network` record of functions: `get`, `dial` and `ping`.
- `time.ParseDuration` is an uninterpreted parameter, `library`.
- The settings file is a `FileState`: missing, unreadable, malformed, or a parsed document.
- Whether `SendTestEmail` resolved is a parameter, `delivered`.
- Whether `SaveSettings` resolved is a parameter, `saved`.

Go's `time.Duration` is int64. The model makes both overflow behaviours explicit:

- a multiplication wraps (`Numbers.Wrap64`);
- `time.Since` saturates (`Numbers.Saturate64`).

The other library behaviours are modelled as follows:

| library behaviour | model |
|---|---|
| `strconv.Atoi` | `Numbers.Atoi`: optional sign, ASCII digits, int64 range |
| `%d` formatting | `Numbers.FormatInt` |
| JavaScript `parseInt(s, 10)` | `Numbers.JsParseInt`: leading white space, an optional sign, the longest digit prefix |

Modules, one per concern of the source:

| module | file | models |
|---|---|---|
| `Outcomes` | outcomes.dfy | `Option` and `Result` |
| `Text` | text.dfy | `strings.Contains`, `Split(…)[0]`, `TrimPrefix`, `TrimSuffix`, `TrimSpace`, `ReplaceAll(…, " ", "")`, and splitting and joining on "\n" |
| `Numbers` | numbers.dfy | int64 arithmetic, `Atoi`, decimal formatting, `parseInt` |
| `Durations` | durations.dfy | `parseDuration` and the loop's fallbacks |
| `Registry` | registry.dfy | `Server`, `validateServer`, `AddServer`, `UpdateServer`, `DeleteServer`, `updateServerStatus`, the monitor's `sync.RWMutex` |
| `Probes` | probes.dfy | `CheckServer`, `checkHTTP`, `checkTCP`, `checkPing`, `ManualCheck` |
| `Alerts` | alerts.dfy | the alert step, and runs of ticks |
| `Monitor` | monitor.dfy | the goroutine's start and one tick, against the registry |
| `Notifications` | notifications.dfy | `NotificationManager` |
| `SettingsStore` | settings.dfy | `Settings`, `DefaultSettings`, `LoadSettings`, the stored file |
| `AppSettings` | appsettings.dfy | `NewApp`, `SaveSettings`, `SaveSetting`, the provider presets |
| `Mail` | mail.dfy | `SMTPSession`, `Data`, `cleanAppPassword`, the forwarding plan |
| `SettingsForm` | settings_form.dfy | the `Settings` React component |

## Behaviours worth noting

The model keeps these behaviours of the code:

- `validateServer` does not check that the timeout is shorter than the interval. It does not check the interval or timeout at all (`Registry.ValidationIgnoresSchedule`).
- `UpdateServer` has no "not found" error: an update of an unknown id adds it.
- `DeleteServer` never returns. It holds the monitor's write lock until it returns, and before that it calls `SaveServersToFile`, which asks the same `sync.RWMutex` for its read lock; that mutex is not reentrant, so the call waits forever with the write lock held. From then on every call that needs the lock waits too: the ticks, the status write-backs, `GetServers`, an accepted `AddServer` or `UpdateServer`, later deletes and the save at shutdown (`Registry.NothingCompletesAfterDelete`). The model uses a corrected delete that releases the lock before saving, as `UpdateServer` does; with it, deleting an unknown id does nothing.
- An HTTP response is "up" exactly when its code is below 400. Go's HTTP client follows redirects before the code is classified, so a 3xx response counts as up only when it reaches the rule unfollowed (a 304, or a 3xx without a location).
- `ManualCheck` probes and returns the result. It never stores the result and never coalesces with the loop's checks.
- After the first check of a loop, a notice is sent only when the result differs from the status the server record was started with. A new server that is down at its first check therefore sends nothing (`Monitor.NewServerFirstCall`).
- A parsed interval of zero or less (such as "0", "-5", or a seconds count so large that the int64 product wraps negative) is not replaced by the default. It reaches `time.NewTicker`, which panics after the first check has been stored and announced (`Monitor.NonPositiveIntervalCrashes`, `Monitor.HugeIntervalCrashes`).

## Model

| member | source | states |
|---|---|---|
| Registry.ValidateServer | app.go:271-283 | a server is accepted iff its name and URL are non-empty and its type is http, tcp or ping; the errors come in that order: name, then URL, then type |
| Registry.ValidationIgnoresSchedule | app.go:271-283 | validation never depends on the id, the interval, the timeout or the status |
| Registry.AddServer | app.go:190-213 | an empty id is replaced by the decimal clock reading before validation; a rejected server leaves the registry unchanged; an accepted one is bound under its id, replacing any server there, and no other entry changes |
| Registry.GeneratedIdIsClockReading | app.go:191-194 | a generated id parses back (with `strconv.Atoi`) to the clock reading it was made from |
| Registry.UpdateServer | app.go:217-246 | an empty id is refused before validation; otherwise a valid server is stored under its id whether or not that id existed, and every other entry is kept |
| Registry.UpdateIsAddWhenIdGiven | app.go:190-246 | with a non-empty id, Update and Add return the same server and error and leave the same map, so Update has no not-found check |
| Registry.UpdateReplacesStatus | app.go:217-246 | an accepted update stores the status the caller sent, replacing the one the probes wrote |
| Registry.DeleteServer | app.go:254-261 | the map a delete leaves removes exactly that id, which may be absent, and keeps every other entry unchanged |
| Registry.AddThenDelete | app.go:190-267 | adding a valid server under a fresh id and deleting that id restores the registry |
| Registry.DeleteIdempotent | app.go:250-267 | deleting an id twice ends as deleting it once: for the map, for the corrected delete, and for the delete as written, whose second call waits on the lock the first kept and changes nothing |
| Registry.UpdateServerStatus | app.go:379-385 | the status write-back changes only the status of a registered id; every key and every other server are kept |
| Registry.StatusAfterDeleteIsDropped | app.go:379-385 | a probe result that arrives for a deleted server leaves the registry unchanged |
| Registry.Locked | app.go:176-177 | a call that takes the monitor lock returns iff the lock is free; it then applies its step and frees the lock, and otherwise it waits having changed nothing |
| Registry.ReadLocked | app.go:493-495 | a read under the read lock, such as `SaveServersToFile` or `GetServers`, changes nothing and returns iff the lock is free |
| Registry.AddServerCall | app.go:190-213 | a rejected add returns its error even while the lock is held, since it fails before asking for it; an accepted add returns iff the lock is free, and leaves the map `AddServer` computes |
| Registry.UpdateServerCall | app.go:217-246 | an update refused for its id or by validation returns even while the lock is held; an accepted one returns iff the lock is free, and leaves the map `UpdateServer` computes |
| Registry.UpdateServerStatusCall | app.go:379-385 | a status write-back returns iff the lock is free, and then leaves the map `UpdateServerStatus` computes |
| Registry.DeleteServerAsWritten | app.go:250-267 | the delete as written never returns; on a free lock it removes the id and leaves the lock held for good |
| Registry.DeleteServerReleasing | app.go:250-267 | the corrected delete returns iff the lock is free, removes the id and leaves the lock free |
| Registry.NothingCompletesAfterDelete | app.go:250-267 | after a delete as written, no read, save, status write-back or delete ever returns, and an add or update returns iff it is rejected before taking the lock |
| Registry.ReleasingDeleteLeavesLockFree | app.go:237-240 | after the corrected delete, reads, adds and updates return again |
| Probes.CheckHttp | app.go:406-432 | a transport error means down, with the error text; otherwise the server is up iff the code is below 400, and the error text is non-empty iff the code is 400 or more, and is then "HTTP code" |
| Probes.HttpErrorNamesCode | app.go:425-430 | the number in an "HTTP code" error parses back to the response's status code |
| Probes.CheckTcp | app.go:434-453 | the server is up iff the dial succeeds; a failed dial reports its error text |
| Probes.PingHost | app.go:455-464 | an address without "://" is pinged unchanged, so a host:port keeps its port; with "://" the host contains neither ':' nor '/' |
| Probes.PingHostCutsAfterScheme | app.go:457-464 | for a URL with "://", the host is the text after the first "://", cut at its first '/' and then at its first ':' |
| Probes.CheckPing | app.go:455-489 | the server is up iff the ping succeeds; a failure reports "Ping failed" |
| Probes.CheckServer | app.go:387-404 | an http, tcp or ping server gets exactly the status its own probe (`checkHTTP`, `checkTCP`, `checkPing` on the host) computes from the network's answer, and is up iff that probe succeeds; any other type is down with the fixed "unsupported" message, without probing; an up status carries no error |
| Probes.ValidatedServerIsProbed | app.go:387-404 | for a named server with a URL, the check reports the probe's elapsed time iff validation accepts the server; a server validation rejects for its type gets the "unsupported" answer |
| Probes.ManualCheck | app.go:588-596 | the manual check probes with the parsed timeout, or with 10 s when the timeout is empty or fails to parse |
| Durations.ParseDuration | app.go:535-548 | an empty string is an error; if removing one trailing 's' leaves an Atoi integer n, the result is n seconds as an int64 product, negative n included; anything else goes to `time.ParseDuration` |
| Durations.SecondsRoundTrip | app.go:541-544 | the decimal text of any whole number of seconds a Duration holds, with or without an "s" suffix, parses to exactly that many seconds |
| Durations.UnitSuffixGoesToLibrary | app.go:541-547 | a string whose last character is neither a digit nor 's' (such as "5m") is parsed by `time.ParseDuration` alone |
| Durations.HugeSecondsWrapNegative | app.go:541-544 | "10000000000s" parses without error to a negative Duration, because the int64 product wraps |
| Durations.MonitorInterval | app.go:290-294 | the ticker period is the parsed interval, or 30 s when parsing fails |
| Durations.MonitorTimeout | app.go:296-300 | the probe timeout is the parsed timeout, or 10 s when parsing fails |
| Durations.ZeroIntervalIsNotDefaulted | app.go:290-294 | an interval of "0" is accepted as a zero period instead of falling back to 30 s, so it reaches the ticker as a zero period |
| Durations.EmptyScheduleDefaults | app.go:289-300 | an empty interval becomes 30 s and an empty timeout 10 s |
| Durations.ScheduleOfSeconds | app.go:289-300 | any int64-range seconds count `n`, written as "<n>s" or as a bare "<n>", becomes exactly `n` seconds for both the interval and the timeout |
| Alerts.InitialLabel | app.go:316-322 | after the first check a notice is sent iff the result differs from the stored status; it is "UP" iff the server is now up, and "DOWN" otherwise |
| Alerts.AlertStep | app.go:342-368 | up to up: no call and the same counter; down to up: counter 0 and "UP"; up to down: counter plus one, then a critical call from 3 on and "DOWN" below that; down to down: counter plus one, with a critical call iff it is a multiple of 5 |
| Alerts.StartState | app.go:311-328 | a loop starts from the state of its first check with a zero counter, which satisfies the invariant |
| Alerts.TickConsistent | app.go:342-368 | every tick keeps the invariant that an up server has a zero failure counter |
| Alerts.Run | app.go:326-368 | a run makes one call per tick, leaves a state storing the last observation, and changes nothing over no ticks |
| Alerts.RunActionAt | app.go:326-368 | the call a run makes at tick `i` is the one a single tick makes from the state the first `i` ticks left |
| Alerts.RunConsistent | app.go:326-368 | every run of ticks from a consistent state ends in a consistent state |
| Alerts.TransitionAlwaysSendsDown | app.go:342-358 | in a consistent loop, a server that goes down always gets a plain "DOWN" with counter 1, so the up-to-down critical branch never fires |
| Alerts.OngoingOutage | app.go:359-367 | k more failed ticks of an ongoing outage raise the counter by k, and make a critical call exactly at the counts that are multiples of 5 |
| Alerts.OutageFromUp | app.go:342-367 | an outage that starts from an up server sends "DOWN" first, then critical calls at failures 5, 10, and so on, and nothing else |
| Monitor.CallFor | app.go:342-367 | each alert action becomes its notifier call: nothing, Send "UP", Send "DOWN", or SendCritical with "DOWN" or "TOUJOURS DOWN" and the count |
| Monitor.Start | app.go:289-324 | the goroutine always stores its first probe (made with the parsed timeout or 10 s) and sends "UP" or "DOWN" iff the probe differs from the record's status; it then crashes iff the interval (parsed, or 30 s) is not positive, and otherwise runs a loop with that interval and timeout |
| Monitor.NonPositiveIntervalCrashes | app.go:289-324 | every interval written as a seconds count from zero down, with or without "s", is accepted by validation exactly like "30s" and crashes the loop at the ticker |
| Monitor.HugeIntervalCrashes | app.go:289-324 | an interval of "10000000000s" wraps to a negative period and crashes the loop at the ticker |
| Monitor.ManualCheckMatchesStart | app.go:588-596 | the status a started loop stores for its first check is the status a manual check of the same server returns |
| Monitor.NewServerFirstCall | app.go:311-322 | a new server whose status is the zero value sends "UP" if its first check is up, and nothing if it is down |
| Monitor.StartEstablishesInvariant | app.go:311-328 | a freshly started loop that did not crash satisfies the invariant between the stored status and its counter |
| Monitor.TickAsWritten | app.go:331-335 | the tick as written crashes exactly when its server is no longer registered |
| Monitor.TickAsWrittenLocking | app.go:331-335 | the tick as written waits forever iff the lock is held for good, and on a free lock behaves as `Monitor.TickAsWritten` |
| Monitor.TickAfterDeleteAsWrittenWaits | app.go:331-335 | a tick still pending when its server is deleted as written waits forever on the lock the delete kept |
| Monitor.Tick | app.go:331-368 | the corrected tick never crashes; it stops iff its server is gone, and otherwise does what the written tick does |
| Monitor.TickAfterDelete | app.go:331-335 | after the corrected delete, which releases the lock, a pending tick of the deleted server crashes as written, and stops in the corrected tick |
| Monitor.TickTouchesOnlyItsServer | app.go:331-340 | a tick changes only the status of its own server; the keys, the other servers and the loop's identity are kept |
| Monitor.TickStoresProbe | app.go:337-339 | the stored status after a tick is the probe of the record read at that tick |
| Monitor.TickPreservesInvariant | app.go:331-368 | every tick keeps the invariant that a stored up status means a zero failure counter |
| Monitor.FreshOutageIsPlainDown | app.go:342-358 | under the invariant, an up server that fails gets "DOWN" and a counter of 1 |
| Monitor.RecoveryCallsUp | app.go:342-347 | a tick sends "UP" iff the stored status was down and the new probe is up |
| Notifications.NewManager | backend/notifications.go:17-22 | a new manager has sent nothing; its cooldown is the minutes in nanoseconds whenever that fits in int64, and always an int64 value |
| Notifications.NewManagerGatesSecondNotice | backend/notifications.go:17-37 | with a manager made for `m` minutes, the first notice for a name goes out and a second one for that name goes out iff it comes more than `m` minutes after the first |
| Notifications.ShouldNotify | backend/notifications.go:24-31 | a call passes iff the name was never notified or more than the cooldown has elapsed since its entry; passing records `now` for that name only; refusing changes nothing |
| Notifications.Send | backend/notifications.go:33-46 | a notice goes out iff the gate passes; it carries the fixed title and a message made of the name and the status |
| Notifications.FirstNoticeDelivered | backend/notifications.go:24-28 | the first notice for a name is always delivered, and records `now` |
| Notifications.SuppressedWithinCooldown | backend/notifications.go:24-37 | within the cooldown of the last delivery nothing is sent and the manager is unchanged |
| Notifications.NamesAreIndependent | backend/notifications.go:24-31 | the gate for one name never adds, removes or changes another name's entry |
| Notifications.SuppressedBurst | backend/notifications.go:24-37 | every attempt within the cooldown of the last delivery is refused, and refused attempts do not move the window |
| Notifications.BurstDeliversOnce | backend/notifications.go:24-37 | a burst for a new name within one cooldown of its first attempt delivers exactly one notice, stamped with the first attempt's time |
| SettingsStore.Decode | backend/settings.go:47-51 | for every field, a present value is taken as it is and an absent one leaves the zero value ("" , 0 or the empty SMTP object) |
| SettingsStore.DecodeEncode | backend/settings.go:47-65 | decoding the document a save writes gives the saved settings back |
| SettingsStore.LoadSettings | backend/settings.go:31-52 | a missing file gives the defaults and no error; a read or parse failure gives the defaults and that error; a parsed file gives exactly its decoded value |
| SettingsStore.LoadAfterStore | backend/settings.go:31-65 | loading the file a successful save wrote returns the saved settings, without error |
| SettingsStore.LoadErrorIffBrokenFile | backend/settings.go:31-52 | loading reports an error iff the file is unreadable or malformed, and then returns the defaults |
| SettingsStore.EmptyFileIsNotDefaults | backend/settings.go:17-52 | a parsed "{}" loads as empty theme and mode with cooldown 0, which differs from the defaults |
| SettingsStore.PartialFileIsNotMerged | backend/settings.go:47-51 | a file that sets only the theme loses the default mode and cooldown |
| AppSettings.EnabledAtStartup | app.go:66-79 | at startup, in-app notices are off iff the mode is "email" or "none" |
| AppSettings.EnabledOnSave | app.go:626-635 | on save, in-app notices are off iff the mode is "none" |
| AppSettings.ModeMappingsDisagreeOnEmail | app.go:66-79 | the startup and save mappings disagree exactly on "email" |
| AppSettings.NewApp | app.go:57-81 | the app starts with the loaded settings, or with the defaults when loading reports an error, and configures the notifier from them |
| AppSettings.EmailSaveDoesNotSurviveRestart | app.go:57-81 | after "email" settings are saved, notices are on; after a restart that loads the same settings, they are off |
| AppSettings.SmtpChanged | app.go:847-855 | the SMTP configuration counts as changed iff it differs in anything other than the From address |
| AppSettings.SaveSettings | app.go:621-647 | a save replaces the settings and configures the notifier, even when the write fails; it returns the write's error and never restarts SMTP |
| AppSettings.SaveSetting | app.go:843-889 | updates memory like `SaveSettings`; the embedded SMTP server restarts iff the write succeeded, the SMTP configuration changed and the mode is "email" |
| AppSettings.ResaveNeverRestarts | app.go:847-885 | saving the same settings a second time never restarts SMTP |
| AppSettings.FromChangeDoesNotRestart | app.go:847-855 | a change of the From address alone never restarts SMTP |
| AppSettings.FailedWriteStillUpdatesMemory | app.go:868-876 | a failed write still replaces the settings in memory, returns the error and does not restart |
| AppSettings.ProviderConfig | app.go:1085-1107 | each preset is its provider's host with port 587 and TLS, and every other field empty |
| Mail.MailFrom | app.go:665-668 | MAIL FROM replaces the sender and keeps the recipients |
| Mail.RcptTo | app.go:670-673 | RCPT TO appends the recipient, keeping duplicates |
| Mail.ParseData | app.go:683-707 | the line loop yields the subject and the trimmed body of `ParseMessage`: the headers end at the first line that is exactly empty, the subject comes from the last "Subject: " header before it, and the body is every later line followed by "\n", then trimmed |
| Mail.ScanAllScanned | app.go:689-700 | after any number of lines, the loop's variables are the subject of the headers read so far and the joined body lines after the blank line |
| Mail.SubjectIsLastSubjectLine | app.go:689-696 | when some header starts with "Subject: ", the subject is the rest of the last such header, and no later header starts with it |
| Mail.MessageRoundTrip | app.go:683-707 | a "Subject: " line, a blank line and a body parse back to that subject and the trimmed body |
| Mail.CrlfBlankLineKeepsHeadersOpen | app.go:684-696 | with CRLF line ends the subject keeps its "\r" and the body is empty: a "\r" line never ends the headers |
| Mail.Data | app.go:675-721 | the message is appended to the store with the session's envelope, the parsed subject and body, and the clock reading; it is handed to the relay iff a relay host is configured |
| Mail.StoredMessageIsForwardedIff | app.go:712-732 | a received message gets a forwarding plan iff both a relay host and a user name are configured |
| Mail.CleanAppPassword | app.go:1110-1113 | the cleaned password has no space, and every other character occurs in it exactly as often as in the original |
| Mail.CleanAppPasswordKeepsOrder | app.go:1110-1113 | cleaning distributes over concatenation and maps a single space to nothing and any other single character to itself, so the remaining characters keep their order |
| Mail.FromAddress | app.go:765-768 | the sender address is the configured From, or the user name when From is empty |
| Mail.ForwardPlan | app.go:728-768 | nothing is sent without a host and a user name; otherwise the relay gets the host, port, user name, cleaned password, TLS flag, sender address, subject and body |
| Mail.ForwardedPasswordIsClean | app.go:736-737 | the forwarded password never contains a space, and a password without spaces is passed on unchanged |
| Mail.ForwardedFromIsNeverEmpty | app.go:728-768 | a forwarded message always has a non-empty sender address |
| SettingsForm.Normalize | frontend/src/components/Settings.jsx:51-65 | a theme or mode outside its set becomes "auto" or "inapp"; the cooldown is kept iff it is a number of at least 0, else 10; the refresh interval iff it is a number of at least 10, else 60; the result is always well formed |
| SettingsForm.NormalizeKeepsWellFormed | frontend/src/components/Settings.jsx:51-65 | a well-formed form sent to the back end and loaded again comes back unchanged |
| SettingsForm.NormalizeIdempotent | frontend/src/components/Settings.jsx:51-65 | validating an already validated result changes nothing |
| SettingsForm.SavedFormReloads | frontend/src/components/Settings.jsx:46-73 | a well-formed form that is saved to the file and loaded again is restored exactly |
| SettingsForm.DefaultRefreshShownAsSixty | frontend/src/components/Settings.jsx:54-55 | the back end's default refresh interval of 0 is shown as 60, and its cooldown is kept |
| SettingsForm.Load | frontend/src/components/Settings.jsx:46-81 | a successful load fills the form with the validated values and takes them as the snapshot; a failed load keeps the defaults, leaves the snapshot empty and shows the error |
| SettingsForm.Current | frontend/src/components/Settings.jsx:92-99 | the current object has exactly the six keys theme, notificationMode, notificationCooldown, refreshInterval, userEmail and smtpConfig |
| SettingsForm.CurrentInjective | frontend/src/components/Settings.jsx:92-99 | two forms with the same current object are the same form |
| SettingsForm.HasChangesIffFormDiffers | frontend/src/components/Settings.jsx:101-113 | with a snapshot taken from a form g, the panel has changes iff its form differs from g |
| SettingsForm.LoadedPanelIsClean | frontend/src/components/Settings.jsx:67-113 | a freshly loaded panel has no changes, and neither does one whose load failed |
| SettingsForm.IntervalInput | frontend/src/components/Settings.jsx:259-264 | the interval changes only to a `parseInt` value from 10 to 3600, and such a value is always taken; no other field changes |
| SettingsForm.IntervalAcceptsLeadingInteger | frontend/src/components/Settings.jsx:259-264 | an in-range number typed in decimal and followed by a non-digit, such as "15.9" or "30s", is taken |
| SettingsForm.IntervalRejectsOutOfRange | frontend/src/components/Settings.jsx:259-264 | a number outside 10 to 3600 is ignored |
| SettingsForm.IntervalEditDirtiesIffChanged | frontend/src/components/Settings.jsx:259-264 | editing the interval of a loaded panel makes it dirty iff the value changes |
| SettingsForm.CooldownInput | frontend/src/components/Settings.jsx:266-271 | the cooldown changes only to a `parseInt` value from 0 to 1440, and such a value is always taken; no other field changes |
| SettingsForm.CooldownAcceptsInteger | frontend/src/components/Settings.jsx:266-271 | a typed number is taken iff it lies from 0 to 1440 |
| SettingsForm.InputsKeepWellFormed | frontend/src/components/Settings.jsx:259-271 | both numeric handlers keep the form well formed |
| SettingsForm.ResetDefaults | frontend/src/components/Settings.jsx:121-138 | reset restores the default form and clears both statuses; the snapshot is kept |
| SettingsForm.ResetDirtiesIffNotDefault | frontend/src/components/Settings.jsx:121-138 | resetting a loaded panel leaves it dirty iff the loaded form was not the default |
| SettingsForm.ProviderNamed | frontend/src/components/Settings.jsx:147-158 | only "gmail", "outlook" and "yahoo" name a provider |
| SettingsForm.MergePreset | frontend/src/components/Settings.jsx:160 | merging a preset takes its host, port and TLS flag, and keeps the user name, password and From address |
| SettingsForm.SelectProvider | frontend/src/components/Settings.jsx:144-165 | a known provider sets that provider's host, port 587 and TLS, and clears the test status; credentials and From are kept; an unknown name changes nothing |
| SettingsForm.SelectProviderGivesPreset | frontend/src/components/Settings.jsx:144-165 | choosing a provider by name gives that provider's preset with the user's name, password and sender kept, and exactly the preset when those are empty |
| SettingsForm.SelectProviderIdempotent | frontend/src/components/Settings.jsx:144-165 | choosing the same provider twice is the same as choosing it once |
| SettingsForm.TestSmtp | frontend/src/components/Settings.jsx:171-191 | with an empty host, user name or password the test fails without calling the back end; otherwise a test mail goes to the user's address, and the status follows its outcome |
| SettingsForm.TestKeepsForm | frontend/src/components/Settings.jsx:171-191 | the SMTP test changes neither the form nor the snapshot |
| SettingsForm.Cancel | frontend/src/components/Settings.jsx:196-214 | cancel as written restores every field (theme, mode, cooldown, refresh, e-mail, SMTP object) from the snapshot through JavaScript's `or` fallback, so a number 0 or an empty text falls back to its default; it clears both statuses |
| SettingsForm.CancelRestoresNonZero | frontend/src/components/Settings.jsx:196-214 | cancel as written restores a well-formed loaded form whose cooldown is not 0, leaving no changes |
| SettingsForm.CancelLosesZeroCooldown | frontend/src/components/Settings.jsx:200 | cancel as written turns a saved cooldown of 0 into 10, and the panel is then dirty |
| SettingsForm.CancelBeforeLoad | frontend/src/components/Settings.jsx:196-214 | cancel on a panel whose load failed restores the default form, in both versions |
| SettingsForm.CancelRestoring | frontend/src/components/Settings.jsx:196-214 | the corrected cancel keeps the snapshot and clears the statuses; each field takes the snapshot's value when its key is present with the right kind, and falls back to its default for each key the snapshot lacks |
| SettingsForm.CancelRestoringIsExact | frontend/src/components/Settings.jsx:196-214 | the corrected cancel gives back exactly the form the snapshot was taken from, leaving no changes |
| SettingsForm.SavedSnapshotAsWritten | frontend/src/components/Settings.jsx:226-238 | the snapshot stored after a save as written holds the six current keys plus an extra "smtp_config" |
| SettingsForm.SaveAsWritten | frontend/src/components/Settings.jsx:220-257 | a resolved save as written stores that snapshot and reports success; a rejected one only reports failure; the form is kept |
| SettingsForm.SaveAsWrittenIsAlwaysDirty | frontend/src/components/Settings.jsx:226-238 | after a save as written, the panel reports changes whatever the form holds |
| SettingsForm.Save | frontend/src/components/Settings.jsx:220-257 | the corrected save takes the form's own current object as the snapshot when it resolves; a rejected save only reports failure |
| SettingsForm.SaveMarksClean | frontend/src/components/Settings.jsx:237-239 | after the corrected save the panel is clean, and later it has changes iff the form differs from the saved one |
| SettingsForm.FailedSaveKeepsChanges | frontend/src/components/Settings.jsx:251-254 | a failed save keeps the snapshot, so the changes stay reported, in both versions |

## Left out

- Goroutines, the ticker's timing and stop channels are not modelled. The monitor's mutex is modelled only as free, or held for good by a delete as written; contention between calls that do return is not modelled, and each such call is one atomic step. Of the ticker, only its panic on a period that is not positive is kept. A loop is its start followed by a sequence of ticks, each a pure step. The race between a tick and the stop channel is reduced to "a tick may run after the server was deleted", which needs the corrected delete to get past the lock. `UpdateServer` also closes the stop channel, so a pending tick of the old loop can run once on the replaced record with the old timeout and counter; when that record carries an up status over a non-zero counter, `Monitor.LoopInvariant` no longer holds and the tick can make a critical call. The panel never sends a status with an update, so only a direct call reaches this.
- `AddServer` with an id that is already registered starts a second monitoring loop and overwrites that id's stop channel without closing the old one (app.go:207-210 and app.go:303-306). The old loop can then never be stopped and keeps ticking on the same record. Loops are not modelled, so `Registry.UpdateIsAddWhenIdGiven` compares only the server, the error and the map.
- File I/O is not modelled: `SaveServersToFile`, `LoadServersFromFile` and the settings write. A write's outcome is a parameter, and the settings file is an abstract `FileState`. JSON encoding is not modelled; a stored file is the `Document` with every field present.
- `GetServers` is modelled only as a read under the lock (`Registry.ReadLocked`); the copy it returns is not. `GetSettings`, `GetSystemTheme` and the theme hook are not modelled. They are read-outs or platform calls with no decision logic.
- The network is an input, not modelled. This covers `http.Client.Get`, `net.DialTimeout`, the `ping` command and its argument list (which depends on the operating system), `time.Since` and `time.Now`.
- Go strings are byte sequences, while the model's `string` is a sequence of Unicode characters. Every separator the code looks for ("://", "/", ":", "\n", "Subject: ", the space) is ASCII, so the two agree on valid UTF-8; invalid UTF-8 is not modelled.
- `time.ParseDuration` is left uninterpreted, as the `library` parameter.
- The SMTP transport is not modelled: the go-smtp server, `io.ReadAll` and its error, the go-mail client, `DialAndSend`, `StartEmbeddedSMTP`, `RestartEmbeddedSMTP`, and the `m.To` and `m.Subject` calls. Forwarding ends at the `Outgoing` plan, and a restart is a flag.
- The notifier methods `SetEnabled`, `SetCooldown`, `IsEnabled`, `ClearCooldowns`, `SendCritical` and `SendSummary` are called from the source but their definitions are not part of this model. The model records the arguments of each call and invents no semantics for them.
- `SendTestEmail`, `TestSMTPConfig`, `SetSMTPConfig`, `SetUserEmail`, `SendServerAlert`, `NotifyServerDown`, `TestEmailAlert` and the e-mail bodies built from the clock are not modelled. They are transport and message text.
- `backend.Settings` in `backend/settings.go` has only four fields, but `app.go` reads `SMTPConfig` and `UserEmail` from it. The model adds both fields, with Go's zero values when they are absent.
- The JSON field names of `SMTPConfig` are not modelled, because its definition is not part of this model.
- The settings panel assumes that a provider preset arrives with only a host, a port and the TLS flag, so spreading it keeps the credentials and the From address.
- JavaScript values are not modelled in full: numbers are integers, so NaN and fractions are left out. A snapshot value of the wrong kind is not modelled.
- `JSON.stringify` comparison of the SMTP object is modelled as structural equality, which assumes the same key order on both sides.
- The JSX rendering, `updateSmtpConfig` (a single-field edit) and `handleClose` are not modelled. Neither are `isLoading`, `isSaving`, `onSettingsChanged` and the timer that closes the panel.
- `main.go` is not modelled: it is application wiring whose mode switch repeats the one in `NewApp`.
- Durations.UnitSuffixGoesToLibrary: states only the case whose last character is neither a digit nor 's'. Inputs like "1.5s" also reach `time.ParseDuration`, but are covered only by the general clause of `Durations.ParseDuration`.

## Findings

| source | as written | input that shows it | evidently intended | confidence | as-written member | corrected member |
|---|---|---|---|---|---|---|
| frontend/src/components/Settings.jsx:226-238 | after a save, the snapshot is `{...settingsToSave, smtpConfig}`, which carries an extra `smtp_config` key that the current object never has | save any settings successfully, then look at `hasChanges` | after a save the panel is clean until the next edit | high, not executed | SettingsForm.SaveAsWrittenIsAlwaysDirty | SettingsForm.SaveMarksClean |
| frontend/src/components/Settings.jsx:196-214 | cancel restores each value as the snapshot's value or else the default, with JavaScript truthiness, so a valid cooldown of 0 is restored as 10 | load settings with cooldown 0, then press cancel | cancel restores the loaded values exactly | high, not executed | SettingsForm.CancelLosesZeroCooldown | SettingsForm.CancelRestoringIsExact |
| app.go:250-267 | `DeleteServer` defers the release of the write lock and calls `SaveServersToFile`, which asks the same non-reentrant `sync.RWMutex` for its read lock (app.go:494), so the delete never returns and every later call that needs the lock waits too | delete any server from the panel | the lock is released before the file is saved, as `UpdateServer` does | high, not executed | Registry.NothingCompletesAfterDelete | Registry.DeleteServerReleasing |
| app.go:331-335 | a tick dereferences `m.servers[server.ID]` without checking that the id is still registered; this stays latent while `DeleteServer` keeps its lock, and is reachable once the delete releases the lock before saving | with the corrected delete, delete a server while a tick of its loop is pending; `select` may take the tick rather than the closed stop channel | a tick whose server is gone ends the loop | medium, not executed | Monitor.TickAfterDelete | Monitor.Tick |

=== FILE: alerts.dfy ===
/** The alert decision inside the monitoring goroutine of `StartMonitoring`,
    as a step function: the previous and new up/down state and the
    consecutive-failure counter decide the counter's next value and which
    notifier call, if any, is made. */
module Alerts {
  import opened Outcomes

  /** The notifier call a tick makes: nothing, `Send(name, "UP")`,
      `Send(name, "DOWN")`, or `SendCritical` with the failure count. */
  datatype Action = NoAction | SendUp | SendDown | SendCritical(failures: nat)

  /** What the loop carries from one tick to the next: the stored up/down
      state the next tick will read, and the consecutive-failure counter. */
  datatype LoopState = LoopState(lastUp: bool, failures: nat)

  /** The label sent after the first check of a freshly started loop, when
      its result differs from the status the server record carried. */
  function InitialLabel(storedUp: bool, checkedUp: bool): (r: Option<string>)
    ensures r.Some? <==> storedUp != checkedUp
    ensures r.Some? ==> (r.value == "UP" <==> checkedUp) && (r.value == "DOWN" <==> !checkedUp)
  {
    if storedUp == checkedUp then None else Some(if checkedUp then "UP" else "DOWN")
  }

  /** One tick: a recovery resets the counter and sends UP; a new failure
      counts and sends DOWN, or a critical notice from the third failure on;
      a failure that persists counts and sends a critical notice on every
      fifth failure; up after up does nothing. */
  function AlertStep(prevUp: bool, newUp: bool, failures: nat): (r: (nat, Action))
    ensures prevUp && newUp ==> r == (failures, NoAction)
    ensures !prevUp && newUp ==> r == (0, SendUp)
    ensures !newUp ==> r.0 == failures + 1
    ensures prevUp && !newUp
            ==> r.1 == (if failures + 1 >= 3 then SendCritical(failures + 1) else SendDown)
    ensures !prevUp && !newUp
            ==> r.1 == (if (failures + 1) % 5 == 0 then SendCritical(failures + 1) else NoAction)
  {
    if prevUp != newUp then
      if newUp then (0, SendUp)
      else
        var n := failures + 1;
        (n, if n >= 3 then SendCritical(n) else SendDown)
    else if !newUp then
      var n := failures + 1;
      (n, if n % 5 == 0 then SendCritical(n) else NoAction)
    else (failures, NoAction)
  }

  /** The loop after a tick whose probe reported `newUp`. */
  function Tick(st: LoopState, newUp: bool): (LoopState, Action)
  {
    var (n, a) := AlertStep(st.lastUp, newUp, st.failures);
    (LoopState(newUp, n), a)
  }

  /** The loop state and the calls made over a run of ticks: one call per
      tick, and the state left behind stores the last observation. */
  function Run(st: LoopState, observed: seq<bool>): (r: (LoopState, seq<Action>))
    ensures |r.1| == |observed|
    ensures |observed| == 0 ==> r == (st, [])
    ensures |observed| > 0 ==> r.0.lastUp == observed[|observed| - 1]
    decreases |observed|
  {
    if |observed| == 0 then (st, [])
    else
      var (next, a) := Tick(st, observed[0]);
      var (last, actions) := Run(next, observed[1..]);
      (last, [a] + actions)
  }

  /** The call made at tick `i` of a run is the one a single tick makes from
      the state the first `i` ticks left behind. */
  lemma {:induction false} RunActionAt(st: LoopState, observed: seq<bool>, i: nat)
    requires i < |observed|
    ensures Run(st, observed).1[i] == Tick(Run(st, observed[..i]).0, observed[i]).1
    decreases i
  {
    var next := Tick(st, observed[0]).0;
    if i == 0 {
      assert observed[..0] == [];
    } else {
      RunActionAt(next, observed[1..], i - 1);
      assert observed[..i][1..] == observed[1..][..i - 1];
      assert observed[..i][0] == observed[0];
    }
  }

  /** The loop's invariant: while the server is up the counter is zero.
      Ticks keep it; an update of the server record that stores an up
      status while the counter is non-zero breaks it from outside the loop. */
  predicate Consistent(st: LoopState) {
    st.lastUp ==> st.failures == 0
  }

  /** The state a loop starts in after its first check. */
  function StartState(checkedUp: bool): (r: LoopState)
    ensures Consistent(r)
    ensures r.lastUp == checkedUp
  {
    LoopState(checkedUp, 0)
  }

  /** The call made at the `count`-th failure of an outage that is already under way. */
  function PersistentAction(count: nat): Action {
    if count % 5 == 0 then SendCritical(count) else NoAction
  }

  /** The calls made at failures `first`, `first + 1`, ... of an ongoing outage, `k` of them. */
  function OutageCalls(first: nat, k: nat): (r: seq<Action>)
    ensures |r| == k
    ensures forall i :: 0 <= i < k ==> r[i] == PersistentAction(first + i)
    decreases k
  {
    if k == 0 then [] else [PersistentAction(first)] + OutageCalls(first + 1, k - 1)
  }

  // ---------------------------------------------------------------------------
  // Lemmas

  /** Every tick keeps the invariant. */
  lemma TickConsistent(st: LoopState, newUp: bool)
    requires Consistent(st)
    ensures Consistent(Tick(st, newUp).0)
  {
  }

  /** Every run from a consistent state ends in a consistent state. */
  lemma {:induction false} RunConsistent(st: LoopState, observed: seq<bool>)
    requires Consistent(st)
    ensures Consistent(Run(st, observed).0)
    decreases |observed|
  {
    if |observed| > 0 {
      TickConsistent(st, observed[0]);
      RunConsistent(Tick(st, observed[0]).0, observed[1..]);
    }
  }

  /** In a loop that keeps its invariant, a server that goes down always gets
      a plain DOWN: the counter is 1 at that point, so the "third failure"
      critical branch of an up-to-down transition is never taken. */
  lemma TransitionAlwaysSendsDown(st: LoopState)
    requires Consistent(st) && st.lastUp
    ensures Tick(st, false) == (LoopState(false, 1), SendDown)
  {
  }

  /** `k` more failed ticks of an ongoing outage raise the counter by `k` and
      send a critical notice exactly at the counts that are multiples of 5. */
  lemma {:induction false} OngoingOutage(failures: nat, k: nat)
    ensures Run(LoopState(false, failures), seq(k, _ => false))
            == (LoopState(false, failures + k), OutageCalls(failures + 1, k))
    decreases k
  {
    if k > 0 {
      var downs := seq(k, _ => false);
      assert downs[1..] == seq(k - 1, _ => false);
      OngoingOutage(failures + 1, k - 1);
    }
  }

  /** An outage that starts from an up server: DOWN on the first failed tick,
      then nothing until the fifth, tenth, ... failure, which are critical. */
  lemma OutageFromUp(k: nat)
    requires k >= 1
    ensures Run(LoopState(true, 0), seq(k, _ => false)).0 == LoopState(false, k)
    ensures Run(LoopState(true, 0), seq(k, _ => false)).1
            == [SendDown] + OutageCalls(2, k - 1)
  {
    var downs := seq(k, _ => false);
    assert downs[1..] == seq(k - 1, _ => false);
    OngoingOutage(1, k - 1);
  }
}

=== FILE: appsettings.dfy ===
/** How `App` holds its settings: the settings it starts with (`NewApp`),
    the two save entry points (`SaveSettings`, `SaveSetting`), the mapping
    from notification mode to the notifier's enabled flag, and the SMTP
    provider presets.  The notifier's own `SetEnabled` and `SetCooldown` are
    not part of this model: the app state records the last value passed to
    each. */
module AppSettings {
  import opened Outcomes
  import opened SettingsStore

  /** The settings in memory and the last arguments given to the notifier. */
  datatype App = App(settings: Settings, notifierEnabled: bool, notifierCooldown: int)

  /** The enabled flag `NewApp` passes for a mode: only "email" and "none" disable. */
  function EnabledAtStartup(mode: string): (r: bool)
    ensures !r <==> mode == "email" || mode == "none"
  {
    match mode
    case "inapp" => true
    case "email" => false
    case "none" => false
    case _ => true
  }

  /** The enabled flag both save entry points pass for a mode: only "none" disables. */
  function EnabledOnSave(mode: string): (r: bool)
    ensures !r <==> mode == "none"
  {
    match mode
    case "inapp" => true
    case "email" => true
    case "none" => false
    case _ => true
  }

  /** `NewApp`: load the settings (the defaults when loading reports an
      error) and configure the notifier from them. */
  function NewApp(file: FileState): (r: App)
    ensures LoadSettings(file).1.Some? ==> r.settings == DefaultSettings
    ensures LoadSettings(file).1.None? ==> r.settings == LoadSettings(file).0
    ensures r.notifierEnabled == EnabledAtStartup(r.settings.notificationMode)
    ensures r.notifierCooldown == r.settings.notificationCooldown
  {
    var (loaded, err) := LoadSettings(file);
    var s := if err.Some? then DefaultSettings else loaded;
    App(s, EnabledAtStartup(s.notificationMode), s.notificationCooldown)
  }

  /** Whether `SaveSetting` sees a changed SMTP configuration: host, port,
      user name, password or TLS differ; the From address is not compared. */
  function SmtpChanged(before: SmtpConfig, after: SmtpConfig): (r: bool)
    ensures r <==> before.(from := "") != after.(from := "")
  {
    before.host != after.host || before.port != after.port || before.username != after.username
    || before.password != after.password || before.tls != after.tls
  }

  /** The outcome of a save: the app afterwards, the error returned, and
      whether a restart of the embedded SMTP server is started. */
  datatype Saved = Saved(app: App, error: Option<string>, restartsSmtp: bool)

  /** `SaveSettings`: configure the notifier, replace the settings in memory,
      then write the file; `writeError` is the write's outcome.  The memory is
      updated even when the write fails. */
  function SaveSettings(app: App, s: Settings, writeError: Option<string>): (r: Saved)
    ensures r.app == App(s, EnabledOnSave(s.notificationMode), s.notificationCooldown)
    ensures r.error == writeError
    ensures !r.restartsSmtp
  {
    Saved(App(s, EnabledOnSave(s.notificationMode), s.notificationCooldown), writeError, false)
  }

  /** `SaveSetting`: as `SaveSettings`, and, when the write succeeded, the
      SMTP configuration changed and the mode is "email", the embedded SMTP
      server is restarted. */
  function SaveSetting(app: App, s: Settings, writeError: Option<string>): (r: Saved)
    ensures r.app == SaveSettings(app, s, writeError).app
    ensures r.error == writeError
    ensures r.restartsSmtp <==> writeError.None? && SmtpChanged(app.settings.smtp, s.smtp)
                                && s.notificationMode == "email"
  {
    var changed := SmtpChanged(app.settings.smtp, s.smtp);
    var updated := App(s, EnabledOnSave(s.notificationMode), s.notificationCooldown);
    Saved(updated, writeError, writeError.None? && changed && s.notificationMode == "email")
  }

  /** The SMTP providers with presets. */
  datatype Provider = Gmail | Outlook | Yahoo

  /** `GetGmailSMTPConfig`, `GetOutlookSMTPConfig`, `GetYahooSMTPConfig`:
      the provider's host on port 587 with TLS, every other field empty. */
  function ProviderConfig(p: Provider): (c: SmtpConfig)
    ensures c.port == 587 && c.tls
    ensures c == ZeroSmtp.(host := c.host, port := 587, tls := true)
    ensures p == Gmail ==> c.host == "smtp.gmail.com"
    ensures p == Outlook ==> c.host == "smtp-mail.outlook.com"
    ensures p == Yahoo ==> c.host == "smtp.mail.yahoo.com"
  {
    var host := match p
      case Gmail => "smtp.gmail.com"
      case Outlook => "smtp-mail.outlook.com"
      case Yahoo => "smtp.mail.yahoo.com";
    ZeroSmtp.(host := host, port := 587, tls := true)
  }

  // ---------------------------------------------------------------------------
  // Lemmas

  /** The startup and save mappings disagree on exactly one mode, "email":
      in-app notices are off after a restart but back on after any save. */
  lemma ModeMappingsDisagreeOnEmail(mode: string)
    ensures EnabledAtStartup(mode) != EnabledOnSave(mode) <==> mode == "email"
  {
  }

  /** Saving "email" settings and restarting leaves the notifier in a different state than the save did. */
  lemma EmailSaveDoesNotSurviveRestart(app: App, s: Settings)
    requires s.notificationMode == "email"
    ensures SaveSettings(app, s, None).app.notifierEnabled
    ensures !NewApp(Stored(s)).notifierEnabled
    ensures NewApp(Stored(s)).settings == s
  {
    LoadAfterStore(s);
  }

  /** Saving the same settings a second time never restarts the SMTP server. */
  lemma ResaveNeverRestarts(app: App, s: Settings, e1: Option<string>, e2: Option<string>)
    ensures !SaveSetting(SaveSetting(app, s, e1).app, s, e2).restartsSmtp
  {
  }

  /** A change of the From address alone never restarts the SMTP server. */
  lemma FromChangeDoesNotRestart(app: App, s: Settings, from: string)
    requires s.smtp == app.settings.smtp.(from := from)
    ensures !SaveSetting(app, s, None).restartsSmtp
  {
  }

  /** A failed write still replaces the settings in memory, and does not restart. */
  lemma FailedWriteStillUpdatesMemory(app: App, s: Settings, e: string)
    ensures SaveSetting(app, s, Some(e)).app.settings == s
    ensures SaveSetting(app, s, Some(e)).error == Some(e)
    ensures !SaveSetting(app, s, Some(e)).restartsSmtp
  {
  }
}

=== FILE: durations.dfy ===
/** Duration strings (`parseDuration`) and the defaults the monitoring loop
    falls back on.  Durations are int64 nanosecond counts, as Go's
    `time.Duration`; `time.ParseDuration` is library code and enters as the
    uninterpreted parameter `library`. */
module Durations {
  import opened Outcomes
  import opened Numbers
  import opened Text

  const Second: int := 1_000_000_000
  const Minute: int := 60 * Second

  /** Interval and timeout used when the server's strings do not parse. */
  const DefaultInterval: int := 30 * Second
  const DefaultTimeout: int := 10 * Second

  const EmptyDurationError: string := "dur\U{E9}e vide"

  /** The largest whole number of seconds an int64 Duration can hold. */
  const MaxSeconds: int := MaxInt64 / Second

  /** `parseDuration`: an empty string is an error; when dropping one trailing
      `s` leaves an integer `n` that `strconv.Atoi` accepts, the result is `n`
      seconds (the int64 product, so it wraps past `MaxSeconds`); anything
      else is handed to `time.ParseDuration` unchanged. */
  function ParseDuration(s: string, library: string -> Result<int, string>): (r: Result<int, string>)
    ensures s == "" ==> r == Err(EmptyDurationError)
    ensures s != "" && Atoi(TrimSuffixChar(s, 's')).Some?
            ==> r == Ok(Wrap64(Atoi(TrimSuffixChar(s, 's')).value * Second))
    ensures s != "" && Atoi(TrimSuffixChar(s, 's')).None? ==> r == library(s)
  {
    if s == "" then Err(EmptyDurationError)
    else
      match Atoi(TrimSuffixChar(s, 's'))
      case Some(n) => Ok(Wrap64(n * Second))
      case None => library(s)
  }

  /** The ticker period `StartMonitoring` derives from a server's interval string. */
  function MonitorInterval(s: string, library: string -> Result<int, string>): (r: int)
    ensures ParseDuration(s, library).Err? ==> r == DefaultInterval
    ensures ParseDuration(s, library).Ok? ==> r == ParseDuration(s, library).value
  {
    match ParseDuration(s, library)
    case Ok(d) => d
    case Err(_) => DefaultInterval
  }

  /** The probe timeout `StartMonitoring` and `ManualCheck` derive from a server's timeout string. */
  function MonitorTimeout(s: string, library: string -> Result<int, string>): (r: int)
    ensures ParseDuration(s, library).Err? ==> r == DefaultTimeout
    ensures ParseDuration(s, library).Ok? ==> r == ParseDuration(s, library).value
  {
    match ParseDuration(s, library)
    case Ok(d) => d
    case Err(_) => DefaultTimeout
  }

  // ---------------------------------------------------------------------------
  // Lemmas

  /** `"<n>s"` and `"<n>"` both mean `n` seconds, for every whole number of
      seconds a Duration can hold, negative ones included. */
  lemma SecondsRoundTrip(n: int, library: string -> Result<int, string>)
    requires -MaxSeconds <= n <= MaxSeconds
    ensures ParseDuration(FormatInt(n) + "s", library) == Ok(n * Second)
    ensures ParseDuration(FormatInt(n), library) == Ok(n * Second)
  {
    var digits := FormatInt(n);
    assert TrimSuffixChar(digits + "s", 's') == digits;
    AtoiFormatInt(n);
    assert TrimSuffixChar(digits, 's') == digits;
  }

  /** A string whose last character is neither a digit nor `s` ("5m", "1h")
      is parsed by `time.ParseDuration` alone. */
  lemma UnitSuffixGoesToLibrary(s: string, library: string -> Result<int, string>)
    requires |s| > 0 && !IsDigit(s[|s| - 1]) && s[|s| - 1] != 's'
    ensures ParseDuration(s, library) == library(s)
  {
  }

  /** Ten billion seconds does not fit in a Duration: the product wraps to a
      negative period, and no error is reported. */
  lemma HugeSecondsWrapNegative(library: string -> Result<int, string>)
    ensures ParseDuration(FormatInt(10_000_000_000) + "s", library).Ok?
    ensures ParseDuration(FormatInt(10_000_000_000) + "s", library).value < 0
  {
    SecondsWrap(10_000_000_000, library);
    WrapAboveMax(10_000_000_000 * Second);
  }

  /** `"<n>s"` means the int64 product of `n` and one second, for every int64 `n`. */
  lemma SecondsWrap(n: int, library: string -> Result<int, string>)
    requires InInt64(n)
    ensures ParseDuration(FormatInt(n) + "s", library) == Ok(Wrap64(n * Second))
  {
    var digits := FormatInt(n);
    assert TrimSuffixChar(digits + "s", 's') == digits;
    AtoiFormatInt(n);
  }

  /** An interval of "0" parses without error, so it is not replaced by the
      30-second default and reaches the ticker as a zero period. */
  lemma ZeroIntervalIsNotDefaulted(library: string -> Result<int, string>)
    ensures MonitorInterval("0", library) == 0
  {
    SecondsRoundTrip(0, library);
    assert FormatInt(0) == "0";
  }

  /** An empty string gives both defaults. */
  lemma EmptyScheduleDefaults(library: string -> Result<int, string>)
    ensures MonitorInterval("", library) == DefaultInterval
    ensures MonitorTimeout("", library) == DefaultTimeout
  {
  }

  /** A whole number of seconds, with or without the "s" suffix, is used as
      given for both the interval and the timeout: the defaults never replace it. */
  lemma ScheduleOfSeconds(n: int, library: string -> Result<int, string>)
    requires -MaxSeconds <= n <= MaxSeconds
    ensures MonitorInterval(FormatInt(n) + "s", library) == n * Second
    ensures MonitorTimeout(FormatInt(n) + "s", library) == n * Second
    ensures MonitorInterval(FormatInt(n), library) == n * Second
    ensures MonitorTimeout(FormatInt(n), library) == n * Second
  {
    SecondsRoundTrip(n, library);
  }
}

=== FILE: mail.dfy ===
/** The embedded SMTP server's session (`SMTPSession`): the envelope it
    collects, the way `Data` splits a message into subject and body, and the
    decision to forward the stored message through the configured relay.
    Reading the message, the relay client and its delivery are left out;
    forwarding is the `Outgoing` message the relay would be given. */
module Mail {
  import opened Outcomes
  import opened Text
  import opened SettingsStore

  const SubjectPrefix: string := "Subject: "

  /** `EmailMessage`; `time` is the clock reading taken when the message was stored. */
  datatype EmailMessage = EmailMessage(from: string, to: seq<string>, subject: string, body: string, time: int)

  /** The envelope a session has collected so far. */
  datatype Session = Session(from: string, to: seq<string>)

  /** The embedded server's store of received messages and the relay configuration it was started with. */
  datatype Backend = Backend(emails: seq<EmailMessage>, config: SmtpConfig)

  /** `Mail`: records the sender, replacing any earlier one. */
  function MailFrom(s: Session, from: string): (r: Session)
    ensures r.from == from && r.to == s.to
  {
    s.(from := from)
  }

  /** `Rcpt`: appends a recipient; duplicates are kept. */
  function RcptTo(s: Session, to: string): (r: Session)
    ensures r.from == s.from && r.to == s.to + [to]
  {
    s.(to := s.to + [to])
  }

  // ---------------------------------------------------------------------------
  // Splitting a message into subject and body

  /** The index of the first empty line, or `|lines|` when there is none. */
  function FirstBlank(lines: seq<string>): (h: nat)
    ensures h <= |lines|
    ensures forall i :: 0 <= i < h ==> lines[i] != ""
    ensures h < |lines| ==> lines[h] == ""
    decreases |lines|
  {
    if |lines| == 0 || lines[0] == "" then 0 else 1 + FirstBlank(lines[1..])
  }

  /** The text after "Subject: " on the last header line that starts with it, or "". */
  function SubjectOf(headers: seq<string>): (r: string)
    ensures (forall i :: 0 <= i < |headers| ==> !HasPrefix(headers[i], SubjectPrefix)) ==> r == ""
    decreases |headers|
  {
    if |headers| == 0 then ""
    else
      var last := headers[|headers| - 1];
      if HasPrefix(last, SubjectPrefix) then TrimPrefix(last, SubjectPrefix)
      else SubjectOf(headers[..|headers| - 1])
  }

  /** What `Data` makes of a message: the lines are split on "\n" only; the
      headers end at the first line that is exactly empty; the subject comes
      from the last "Subject: " header; the body is every line after the
      blank one, each followed by "\n", then trimmed of surrounding white
      space.  Without a blank line the body is empty. */
  function ParseMessage(content: string): (r: (string, string))
  {
    var lines := Lines(content);
    var h := FirstBlank(lines);
    (SubjectOf(lines[..h]), TrimSpace(if h < |lines| then Unlines(lines[h + 1..]) else ""))
  }

  /** The variables of the parsing loop of `Data`. */
  datatype Scan = Scan(inHeaders: bool, subject: string, raw: string)

  /** One pass of the loop: a header line may set the subject, and an empty
      one ends the headers; after the headers, each line is appended with a
      newline. */
  function ScanLine(st: Scan, line: string): Scan {
    if st.inHeaders then
      Scan(line != "", if HasPrefix(line, SubjectPrefix) then TrimPrefix(line, SubjectPrefix) else st.subject, st.raw)
    else st.(raw := st.raw + line + "\n")
  }

  /** The loop's state after the first `i` lines, in terms of `ParseMessage`'s
      pieces, with the headers ending at line `h`. */
  predicate Scanned(lines: seq<string>, h: nat, i: nat, st: Scan)
    requires h <= |lines| && i <= |lines|
  {
    && (st.inHeaders <==> i <= h)
    && st.subject == SubjectOf(lines[..if i <= h then i else h])
    && st.raw == if i <= h then "" else Unlines(lines[h + 1..i])
  }

  /** The parsing loop of `Data`: the message's lines scanned in order, then the body trimmed. */
  method ParseData(content: string) returns (subject: string, body: string)
    ensures (subject, body) == ParseMessage(content)
  {
    var lines := Lines(content);
    var st := Scan(true, "", "");
    var i := 0;
    while i < |lines|
      invariant 0 <= i <= |lines|
      invariant st == ScanUpTo(lines, i)
    {
      st := ScanLine(st, lines[i]);
      i := i + 1;
    }
    ScanAllScanned(lines, |lines|);
    ScanDone(content, st);
    subject := st.subject;
    body := TrimSpace(st.raw);
  }

  /** The loop's variables after scanning the first `i` of `lines`. */
  function ScanUpTo(lines: seq<string>, i: nat): Scan
    requires i <= |lines|
  {
    if i == 0 then Scan(true, "", "")
    else ScanLine(ScanUpTo(lines, i - 1), lines[i - 1])
  }

  /** Scanning the first `i` lines leaves the state `Scanned` describes. */
  lemma {:induction false} ScanAllScanned(lines: seq<string>, i: nat)
    requires i <= |lines|
    ensures Scanned(lines, FirstBlank(lines), i, ScanUpTo(lines, i))
  {
    if i == 0 {
      assert lines[..0] == [];
    } else {
      ScanAllScanned(lines, i - 1);
      ScanStep(lines, FirstBlank(lines), i);
    }
  }

  /** After the last line the loop's variables hold `ParseMessage`'s subject and untrimmed body. */
  lemma ScanDone(content: string, st: Scan)
    requires Scanned(Lines(content), FirstBlank(Lines(content)), |Lines(content)|, st)
    ensures (st.subject, TrimSpace(st.raw)) == ParseMessage(content)
  {
    var lines := Lines(content);
    assert lines[..|lines|] == lines;
  }

  /** One pass of the loop keeps `Scanned` when `h` is the first blank line. */
  lemma ScanStep(lines: seq<string>, h: nat, i: nat)
    requires h == FirstBlank(lines)
    requires 0 < i <= |lines| && Scanned(lines, h, i - 1, ScanUpTo(lines, i - 1))
    ensures Scanned(lines, h, i, ScanUpTo(lines, i))
  {
    if i <= h {
      ScanHeaderLine(lines, h, i);
    } else if i == h + 1 {
      ScanBlankLine(lines, h, i);
    } else {
      ScanBodyLine(lines, h, i);
    }
  }

  /** A header line before the first blank one may set the subject and keeps the headers open. */
  lemma ScanHeaderLine(lines: seq<string>, h: nat, i: nat)
    requires h == FirstBlank(lines)
    requires 0 < i <= h && Scanned(lines, h, i - 1, ScanUpTo(lines, i - 1))
    ensures Scanned(lines, h, i, ScanUpTo(lines, i))
  {
    var st := ScanUpTo(lines, i - 1);
    assert lines[i - 1] != "";
    assert st.inHeaders;
    HeaderStep(lines, i - 1);
  }

  /** The first blank line ends the headers and keeps the subject. */
  lemma ScanBlankLine(lines: seq<string>, h: nat, i: nat)
    requires h == FirstBlank(lines)
    requires i == h + 1 <= |lines| && Scanned(lines, h, h, ScanUpTo(lines, h))
    ensures Scanned(lines, h, i, ScanUpTo(lines, i))
  {
    assert lines[h] == "";
    assert !HasPrefix(lines[h], SubjectPrefix);
    assert lines[h + 1..h + 1] == [];
  }

  /** A line after the headers is appended to the body. */
  lemma ScanBodyLine(lines: seq<string>, h: nat, i: nat)
    requires h == FirstBlank(lines)
    requires h + 1 < i <= |lines| && Scanned(lines, h, i - 1, ScanUpTo(lines, i - 1))
    ensures Scanned(lines, h, i, ScanUpTo(lines, i))
  {
    var st := ScanUpTo(lines, i - 1);
    assert !st.inHeaders && st.raw == Unlines(lines[h + 1..i - 1]);
    assert ScanUpTo(lines, i) == st.(raw := st.raw + lines[i - 1] + "\n");
    BodyStep(lines, h + 1, i);
  }

  /** One more header line: the subject is that line's, when it is a subject line. */
  lemma HeaderStep(lines: seq<string>, i: nat)
    requires i < |lines|
    ensures SubjectOf(lines[..i + 1])
            == if HasPrefix(lines[i], SubjectPrefix) then TrimPrefix(lines[i], SubjectPrefix) else SubjectOf(lines[..i])
  {
    assert lines[..i + 1][..i] == lines[..i];
  }

  /** One more body line is appended with its newline. */
  lemma BodyStep(lines: seq<string>, from: nat, i: nat)
    requires from < i <= |lines|
    ensures Unlines(lines[from..i]) == Unlines(lines[from..i - 1]) + lines[i - 1] + "\n"
  {
    assert lines[from..i] == lines[from..i - 1] + [lines[i - 1]];
    UnlinesSnoc(lines[from..i - 1], lines[i - 1]);
  }

  /** `Data` after reading the message: the message is stored with the
      session's envelope and the clock reading `now`, and it is handed to the
      relay exactly when a relay host is configured. */
  function Data(b: Backend, s: Session, content: string, now: int): (r: (Backend, Option<EmailMessage>))
    ensures |r.0.emails| == |b.emails| + 1 && r.0.emails[..|b.emails|] == b.emails
    ensures r.0.config == b.config
    ensures var m := r.0.emails[|b.emails|];
            m.from == s.from && m.to == s.to && (m.subject, m.body) == ParseMessage(content) && m.time == now
    ensures r.1.Some? <==> b.config.host != ""
    ensures r.1.Some? ==> r.1.value == r.0.emails[|b.emails|]
  {
    var (subject, body) := ParseMessage(content);
    var email := EmailMessage(s.from, s.to, subject, body, now);
    (b.(emails := b.emails + [email]), if b.config.host != "" then Some(email) else None)
  }

  // ---------------------------------------------------------------------------
  // Forwarding

  /** `cleanAppPassword`: the password with every ASCII space removed. */
  function CleanAppPassword(password: string): (r: string)
    ensures ' ' !in r
    ensures forall c :: c != ' ' ==> multiset(r)[c] == multiset(password)[c]
  {
    RemoveSpaces(password)
  }

  /** The sender address used when forwarding: the configured From, or the user name when From is empty. */
  function FromAddress(c: SmtpConfig): (r: string)
    ensures c.from != "" ==> r == c.from
    ensures c.from == "" ==> r == c.username
  {
    if c.from == "" then c.username else c.from
  }

  /** What the relay client is configured with and asked to send. */
  datatype Outgoing = Outgoing(
    host: string,
    port: int,
    username: string,
    password: string,
    tlsMandatory: bool,
    from: string,
    subject: string,
    body: string)

  /** `forwardToRealEmail` up to the send: nothing is sent without a relay
      host and a user name; otherwise the relay is given the cleaned password,
      the TLS policy, the sender address, and the message's subject and body. */
  function ForwardPlan(email: EmailMessage, c: SmtpConfig): (r: Option<Outgoing>)
    ensures r.None? <==> c.host == "" || c.username == ""
    ensures r.Some? ==> r.value.host == c.host && r.value.port == c.port && r.value.username == c.username
    ensures r.Some? ==> r.value.password == CleanAppPassword(c.password)
    ensures r.Some? ==> r.value.tlsMandatory == c.tls && r.value.from == FromAddress(c)
    ensures r.Some? ==> r.value.subject == email.subject && r.value.body == email.body
  {
    if c.host == "" || c.username == "" then None
    else Some(Outgoing(c.host, c.port, c.username, CleanAppPassword(c.password), c.tls,
                       FromAddress(c), email.subject, email.body))
  }

  // ---------------------------------------------------------------------------
  // Lemmas

  /** Appending a line appends it and its newline. */
  lemma {:induction false} UnlinesSnoc(ls: seq<string>, x: string)
    ensures Unlines(ls + [x]) == Unlines(ls) + x + "\n"
    decreases |ls|
  {
    if |ls| > 0 {
      assert (ls + [x])[1..] == ls[1..] + [x];
      UnlinesSnoc(ls[1..], x);
    } else {
      assert ls + [x] == [x];
    }
  }

  /** When some header starts with "Subject: ", the subject is the rest of
      the last such header. */
  lemma {:induction false} SubjectIsLastSubjectLine(headers: seq<string>, i: nat)
    requires i < |headers| && HasPrefix(headers[i], SubjectPrefix)
    ensures exists j :: i <= j < |headers| && headers[j] == SubjectPrefix + SubjectOf(headers)
                        && forall k :: j < k < |headers| ==> !HasPrefix(headers[k], SubjectPrefix)
    decreases |headers|
  {
    var n := |headers| - 1;
    var last := headers[n];
    if HasPrefix(last, SubjectPrefix) {
      assert headers[n] == SubjectPrefix + SubjectOf(headers);
    } else {
      var init := headers[..n];
      assert i < n;
      assert init[i] == headers[i];
      SubjectIsLastSubjectLine(init, i);
      var j :| i <= j < |init| && init[j] == SubjectPrefix + SubjectOf(init)
               && forall k :: j < k < |init| ==> !HasPrefix(init[k], SubjectPrefix);
      assert headers[j] == init[j];
      assert forall k :: j < k < |headers| ==> !HasPrefix(headers[k], SubjectPrefix) by {
        forall k | j < k < |headers|
          ensures !HasPrefix(headers[k], SubjectPrefix)
        {
          if k < n {
            assert init[k] == headers[k];
          }
        }
      }
    }
  }

  /** A text without a newline is a single line. */
  lemma {:induction false} LinesOfOneLine(s: string)
    requires '\n' !in s
    ensures Lines(s) == [s]
    decreases |s|
  {
    if |s| > 0 {
      assert '\n' !in s[1..];
      LinesOfOneLine(s[1..]);
      assert [s[0]] + s[1..] == s;
    }
  }

  /** A subject line, a blank line and a body come back as that subject and
      the trimmed body. */
  lemma MessageRoundTrip(subject: string, body: string)
    requires '\n' !in subject
    ensures ParseMessage(SubjectPrefix + subject + "\n\n" + body) == (subject, TrimSpace(body))
  {
    var header := SubjectPrefix + subject;
    SubjectLineHasNoNewline(subject);
    assert SubjectPrefix + subject + "\n\n" + body == header + "\n" + ("" + "\n" + body);
    assert |header| >= |SubjectPrefix|;
    BlankSeparatedParse(header, body);
    assert HasPrefix(header, SubjectPrefix);
    assert SubjectOf([header]) == subject;
  }

  /** A subject line carries no newline when its subject has none. */
  lemma SubjectLineHasNoNewline(subject: string)
    requires '\n' !in subject
    ensures '\n' !in SubjectPrefix + subject
  {
    NoNewlineConcat(SubjectPrefix, subject);
  }

  /** Two texts without a newline make one without a newline. */
  lemma NoNewlineConcat(a: string, b: string)
    requires '\n' !in a && '\n' !in b
    ensures '\n' !in a + b
  {
    forall k | 0 <= k < |a + b|
      ensures (a + b)[k] != '\n'
    {
      if k < |a| {
        assert (a + b)[k] == a[k];
      } else {
        assert (a + b)[k] == b[k - |a|];
      }
    }
  }

  /** One header line, a blank line and a body: the header is the only
      header, and the body comes back trimmed. */
  lemma BlankSeparatedParse(header: string, body: string)
    requires header != "" && '\n' !in header
    ensures ParseMessage(header + "\n" + ("" + "\n" + body)) == (SubjectOf([header]), TrimSpace(body))
  {
    LinesAfterLine(header, "" + "\n" + body);
    LinesAfterLine("", body);
    var lines := Lines(header + "\n" + ("" + "\n" + body));
    assert lines == [header, ""] + Lines(body);
    assert lines[0] != "" && lines[1] == "";
    assert FirstBlank(lines) == 1 + FirstBlank(lines[1..]);
    assert FirstBlank(lines) == 1;
    assert lines[..1] == [header];
    assert lines[2..] == Lines(body);
    UnlinesLines(body);
    TrimSpaceIgnoresTrailingSpace(body, '\n');
  }

  /** With CRLF line ends the blank line is "\r", which does not end the
      headers: the subject keeps its "\r", the body is empty, and the body
      line is read as one more header. */
  lemma CrlfBlankLineKeepsHeadersOpen(subject: string, body: string)
    requires '\n' !in subject && '\n' !in body && !HasPrefix(body, SubjectPrefix)
    ensures ParseMessage(SubjectPrefix + subject + "\r\n\r\n" + body) == (subject + "\r", "")
  {
    var header := SubjectPrefix + subject + "\r";
    CrlfLines(subject, body);
    var lines := [header, "\r", body];
    assert |header| >= |SubjectPrefix|;
    var h := CrlfFirstBlank(header, body);
    CrlfSubject(subject, body, h);
    assert h == |lines| || Unlines(lines[h + 1..]) == "" by {
      if h < |lines| {
        assert lines[h + 1..] == [];
      }
    }
    assert TrimSpace("") == "";
  }

  /** With a one-line body the headers run to the body's end, or to the body
      itself when it is the empty line; returns that index. */
  lemma CrlfFirstBlank(header: string, body: string) returns (h: nat)
    requires header != ""
    ensures h == FirstBlank([header, "\r", body])
    ensures h == if body == "" then 2 else 3
  {
    var lines := [header, "\r", body];
    assert lines[1..] == ["\r", body] && lines[1..][1..] == [body];
    assert FirstBlank(lines) == 1 + FirstBlank(lines[1..]) == 2 + FirstBlank([body]);
    if body != "" {
      assert [body][1..] == [];
    }
    h := FirstBlank(lines);
  }

  /** The header lines before `h` carry the subject line's "\r"-ended subject. */
  lemma CrlfSubject(subject: string, body: string, h: nat)
    requires !HasPrefix(body, SubjectPrefix)
    requires h == 2 || h == 3
    ensures SubjectOf([SubjectPrefix + subject + "\r", "\r", body][..h]) == subject + "\r"
  {
    var header := SubjectPrefix + subject + "\r";
    var lines := [header, "\r", body];
    assert HasPrefix(header, SubjectPrefix) && header[|SubjectPrefix|..] == subject + "\r";
    assert SubjectOf(lines[..1]) == subject + "\r" by {
      assert lines[..1] == [header];
    }
    assert !HasPrefix(lines[1], SubjectPrefix);
    HeaderStep(lines, 1);
    if h == 3 {
      HeaderStep(lines, 2);
      assert lines[..3] == lines;
    }
  }

  /** The lines of a CRLF message with one subject header and a one-line body. */
  lemma CrlfLines(subject: string, body: string)
    requires '\n' !in subject && '\n' !in body
    ensures Lines(SubjectPrefix + subject + "\r\n\r\n" + body) == [SubjectPrefix + subject + "\r", "\r", body]
  {
    var header := SubjectPrefix + subject + "\r";
    SubjectLineHasNoNewline(subject);
    NoNewlineConcat(SubjectPrefix + subject, "\r");
    assert SubjectPrefix + subject + "\r\n\r\n" + body == header + "\n" + ("\r" + "\n" + body);
    LinesAfterLine(header, "\r" + "\n" + body);
    LinesAfterLine("\r", body);
    LinesOfOneLine(body);
  }

  /** The forwarded password never contains a space, and a password without spaces is passed unchanged. */
  lemma ForwardedPasswordIsClean(email: EmailMessage, c: SmtpConfig)
    requires ForwardPlan(email, c).Some?
    ensures ' ' !in ForwardPlan(email, c).value.password
    ensures ' ' !in c.password ==> ForwardPlan(email, c).value.password == c.password
  {
    if ' ' !in c.password {
      RemoveSpacesNoSpace(c.password);
    }
  }

  /** Cleaning keeps every character other than a space, in order: it
      distributes over concatenation and drops exactly the single spaces. */
  lemma {:induction false} CleanAppPasswordKeepsOrder(a: string, b: string, c: char)
    ensures CleanAppPassword(a + b) == CleanAppPassword(a) + CleanAppPassword(b)
    ensures CleanAppPassword([c]) == if c == ' ' then "" else [c]
    ensures CleanAppPassword("") == ""
  {
    RemoveSpacesAppend(a, b);
    assert [c][1..] == "";
  }

  /** A forwarded message always has a sender address. */
  lemma ForwardedFromIsNeverEmpty(email: EmailMessage, c: SmtpConfig)
    requires ForwardPlan(email, c).Some?
    ensures ForwardPlan(email, c).value.from != ""
  {
  }

  /** A stored message gets a forwarding plan exactly when both a relay host and a user name are configured. */
  lemma StoredMessageIsForwardedIff(b: Backend, s: Session, content: string, now: int)
    ensures var (_, forwarded) := Data(b, s, content, now);
            (forwarded.Some? && ForwardPlan(forwarded.value, b.config).Some?)
            <==> b.config.host != "" && b.config.username != ""
  {
  }
}

=== FILE: monitor.dfy ===
/** The monitoring goroutine of `StartMonitoring`: its first check, and one
    ticker tick.  The goroutine captures the server's id and name, the
    parsed timeout, and its consecutive-failure counter; everything else it
    reads from the registry at each tick.  Scheduling, the stop channel and
    the ticker are left out: a run is the sequence of ticks it performs. */
module Monitor {
  import opened Outcomes
  import opened Registry
  import opened Probes
  import opened Alerts
  import Numbers
  import Durations

  /** What one monitoring goroutine carries between ticks. */
  datatype Loop = Loop(id: string, name: string, timeout: int, failures: nat)

  /** A notifier call: `Notifier.Send(name, status)` or `Notifier.SendCritical(name, message)`. */
  datatype Call = Plain(status: string) | Critical(message: string)

  /** The text of a critical call: a fresh outage says "DOWN", an ongoing one "TOUJOURS DOWN". */
  function CriticalMessage(ongoing: bool, failures: nat): (r: string)
    ensures |r| > 0
  {
    (if ongoing then "TOUJOURS DOWN (\U{E9}checs: " else "DOWN (\U{E9}checs: ")
    + Numbers.FormatInt(failures) + ")"
  }

  /** The call an alert action makes. */
  function CallFor(prevUp: bool, newUp: bool, a: Action): (r: Option<Call>)
    ensures r.None? <==> a.NoAction?
    ensures a.SendUp? ==> r == Some(Plain("UP"))
    ensures a.SendDown? ==> r == Some(Plain("DOWN"))
    ensures a.SendCritical? ==> r == Some(Critical(CriticalMessage(prevUp == newUp, a.failures)))
  {
    match a
    case NoAction => None
    case SendUp => Some(Plain("UP"))
    case SendDown => Some(Plain("DOWN"))
    case SendCritical(n) => Some(Critical(CriticalMessage(prevUp == newUp, n)))
  }

  /** The goroutine's first check: a probe with the parsed timeout, or 10 s. */
  function FirstCheck(server: Server, library: string -> Result<int, string>,
                      net: Network, elapsedMs: int, now: int): ServerStatus {
    CheckServer(server, Durations.MonitorTimeout(server.timeout, library), net, elapsedMs, now)
  }

  /** A goroutine after its first check: running with its ticker period, or
      crashed because `time.NewTicker` panics on a period that is not
      positive.  Either way the first check has been stored and its call made. */
  datatype Started =
    | Running(servers: Servers, loop: Loop, interval: int, call: Option<Call>)
    | StartCrashed(servers: Servers, call: Option<Call>)

  /** `StartMonitoring`: parse the interval and timeout (30 s and 10 s when
      they do not parse), check the server once, store the result, send "UP"
      or "DOWN" when it differs from the status the server record was started
      with, then create the ticker, which panics unless the period is positive. */
  function Start(servers: Servers, server: Server, library: string -> Result<int, string>,
                 net: Network, elapsedMs: int, now: int): (r: Started)
    ensures r.StartCrashed? <==> Durations.MonitorInterval(server.interval, library) <= 0
    ensures r.Running? ==> r.loop == Loop(server.id, server.name, Durations.MonitorTimeout(server.timeout, library), 0)
    ensures r.Running? ==> r.interval == Durations.MonitorInterval(server.interval, library)
    ensures r.servers == UpdateServerStatus(servers, server.id, FirstCheck(server, library, net, elapsedMs, now))
    ensures r.call.Some? <==> FirstCheck(server, library, net, elapsedMs, now).isUp != server.status.isUp
    ensures r.call.Some? ==> r.call.value == Plain(if server.status.isUp then "DOWN" else "UP")
  {
    var timeout := Durations.MonitorTimeout(server.timeout, library);
    var interval := Durations.MonitorInterval(server.interval, library);
    var st := FirstCheck(server, library, net, elapsedMs, now);
    var initial := InitialLabel(server.status.isUp, st.isUp);
    var call := if initial.Some? then Some(Plain(initial.value)) else None;
    var stored := UpdateServerStatus(servers, server.id, st);
    if interval <= 0 then StartCrashed(stored, call)
    else Running(stored, Loop(server.id, server.name, timeout, 0), interval, call)
  }

  /** What a tick leaves behind.  `Waiting` is the tick blocked for good on
      the registry's read lock; `Crashed` is the Go runtime panic of
      dereferencing the registry's nil entry for a deleted id; `Stopped` is
      the goroutine ending without touching anything. */
  datatype TickResult =
    | Waiting
    | Crashed
    | Stopped
    | Ticked(servers: Servers, loop: Loop, call: Option<Call>)

  /** The tick once the server's current record has been read: probe it with
      the loop's timeout, store the status, and let the alert step decide,
      comparing with the status stored before this tick. */
  function TickRecord(servers: Servers, loop: Loop, current: Server, net: Network,
                      elapsedMs: int, now: int): (r: TickResult)
    ensures r.Ticked?
  {
    var st := CheckServer(current, loop.timeout, net, elapsedMs, now);
    var (n, a) := AlertStep(current.status.isUp, st.isUp, loop.failures);
    Ticked(UpdateServerStatus(servers, loop.id, st), loop.(failures := n),
           CallFor(current.status.isUp, st.isUp, a))
  }

  /** A tick as the loop is written: the registry entry is dereferenced
      without looking whether it still exists. */
  function TickAsWritten(servers: Servers, loop: Loop, net: Network, elapsedMs: int, now: int): (r: TickResult)
    ensures loop.id !in servers <==> r.Crashed?
  {
    if loop.id !in servers then Crashed
    else TickRecord(servers, loop, servers[loop.id], net, elapsedMs, now)
  }

  /** A tick as written, with the read lock it takes before it reads the
      registry entry: while the lock is held for good it never gets past it. */
  function TickAsWrittenLocking(g: Guarded, loop: Loop, net: Network, elapsedMs: int, now: int): (r: TickResult)
    ensures r.Waiting? <==> g.lock == HeldForGood
    ensures g.lock == Free ==> r == TickAsWritten(g.servers, loop, net, elapsedMs, now)
  {
    match ReadLocked(g)
    case Hangs(_) => Waiting
    case Returned(read) => TickAsWritten(read.servers, loop, net, elapsedMs, now)
  }

  /** A tick that ends the goroutine when its server is no longer registered. */
  function Tick(servers: Servers, loop: Loop, net: Network, elapsedMs: int, now: int): (r: TickResult)
    ensures !r.Crashed?
    ensures loop.id !in servers <==> r.Stopped?
    ensures loop.id in servers ==> r == TickAsWritten(servers, loop, net, elapsedMs, now)
  {
    if loop.id !in servers then Stopped
    else TickRecord(servers, loop, servers[loop.id], net, elapsedMs, now)
  }

  /** The stored status is up only while the loop's failure counter is zero.
      Only the loop's own ticks keep it: an `UpdateServer` that stores an up
      status over a loop with a non-zero counter breaks it, and a tick of
      that loop still pending can then run once on the new record. */
  predicate LoopInvariant(servers: Servers, loop: Loop) {
    loop.id in servers ==> (servers[loop.id].status.isUp ==> loop.failures == 0)
  }

  // ---------------------------------------------------------------------------
  // Lemmas

  /** A tick changes the status of its own server and nothing else. */
  lemma TickTouchesOnlyItsServer(servers: Servers, loop: Loop, net: Network, elapsedMs: int, now: int)
    requires loop.id in servers
    ensures var r := Tick(servers, loop, net, elapsedMs, now);
            && r.Ticked?
            && r.servers.Keys == servers.Keys
            && r.servers[loop.id] == servers[loop.id].(status := r.servers[loop.id].status)
            && (forall k :: k in servers && k != loop.id ==> r.servers[k] == servers[k])
            && r.loop.id == loop.id && r.loop.name == loop.name && r.loop.timeout == loop.timeout
  {
  }

  /** The stored status after a tick is the probe of the record read at that tick. */
  lemma TickStoresProbe(servers: Servers, loop: Loop, net: Network, elapsedMs: int, now: int)
    requires loop.id in servers
    ensures Tick(servers, loop, net, elapsedMs, now).servers[loop.id].status
            == CheckServer(servers[loop.id], loop.timeout, net, elapsedMs, now)
  {
  }

  /** A freshly started goroutine satisfies the invariant, and every tick keeps it. */
  lemma StartEstablishesInvariant(servers: Servers, server: Server, library: string -> Result<int, string>,
                                  net: Network, elapsedMs: int, now: int)
    requires Start(servers, server, library, net, elapsedMs, now).Running?
    ensures LoopInvariant(Start(servers, server, library, net, elapsedMs, now).servers,
                          Start(servers, server, library, net, elapsedMs, now).loop)
  {
  }

  lemma TickPreservesInvariant(servers: Servers, loop: Loop, net: Network, elapsedMs: int, now: int)
    requires LoopInvariant(servers, loop)
    requires Tick(servers, loop, net, elapsedMs, now).Ticked?
    ensures LoopInvariant(Tick(servers, loop, net, elapsedMs, now).servers,
                          Tick(servers, loop, net, elapsedMs, now).loop)
  {
  }

  /** Under the invariant, a server that was up and fails its check gets a
      plain "DOWN"; the "DOWN (échecs: n)" critical call is never made. */
  lemma FreshOutageIsPlainDown(servers: Servers, loop: Loop, net: Network, elapsedMs: int, now: int)
    requires LoopInvariant(servers, loop)
    requires loop.id in servers && servers[loop.id].status.isUp
    requires !CheckServer(servers[loop.id], loop.timeout, net, elapsedMs, now).isUp
    ensures Tick(servers, loop, net, elapsedMs, now).call == Some(Plain("DOWN"))
    ensures Tick(servers, loop, net, elapsedMs, now).loop.failures == 1
  {
  }

  /** A tick makes a plain "UP" call exactly when a stored failure turns into a success. */
  lemma RecoveryCallsUp(servers: Servers, loop: Loop, net: Network, elapsedMs: int, now: int)
    requires loop.id in servers
    ensures Tick(servers, loop, net, elapsedMs, now).call == Some(Plain("UP"))
            <==> !servers[loop.id].status.isUp && CheckServer(servers[loop.id], loop.timeout, net, elapsedMs, now).isUp
  {
  }

  /** A new server (status still the zero value) that is down at its first
      check sends nothing; one that is up sends "UP". */
  lemma NewServerFirstCall(servers: Servers, server: Server, library: string -> Result<int, string>,
                           net: Network, elapsedMs: int, now: int)
    requires server.status == ZeroStatus
    ensures var r := Start(servers, server, library, net, elapsedMs, now);
            var st := CheckServer(server, Durations.MonitorTimeout(server.timeout, library), net, elapsedMs, now);
            r.call == (if st.isUp then Some(Plain("UP")) else None)
  {
  }

  /** An interval of "0", "0s" or a negative number of seconds, all accepted
      by validation, crashes the process once the first check is done. */
  lemma NonPositiveIntervalCrashes(servers: Servers, server: Server, library: string -> Result<int, string>,
                                   net: Network, elapsedMs: int, now: int, n: int)
    requires -Durations.MaxSeconds <= n <= 0
    requires server.interval == Numbers.FormatInt(n) || server.interval == Numbers.FormatInt(n) + "s"
    ensures Start(servers, server, library, net, elapsedMs, now).StartCrashed?
    ensures ValidateServer(server) == ValidateServer(server.(interval := "30s"))
  {
    Durations.SecondsRoundTrip(n, library);
    ValidationIgnoresSchedule(server, server.id, "30s", server.timeout, server.status);
  }

  /** An interval of ten billion seconds wraps to a negative period and crashes too. */
  lemma HugeIntervalCrashes(servers: Servers, server: Server, library: string -> Result<int, string>,
                            net: Network, elapsedMs: int, now: int)
    requires server.interval == Numbers.FormatInt(10_000_000_000) + "s"
    ensures Start(servers, server, library, net, elapsedMs, now).StartCrashed?
  {
    Durations.HugeSecondsWrapNegative(library);
  }

  /** A manual check returns exactly the status a freshly started loop stores for the same server. */
  lemma ManualCheckMatchesStart(servers: Servers, server: Server, library: string -> Result<int, string>,
                                net: Network, elapsedMs: int, now: int)
    requires server.id in servers
    ensures Start(servers, server, library, net, elapsedMs, now).servers[server.id].status
            == ManualCheck(server, library, net, elapsedMs, now)
  {
  }

  /** A tick still pending when its server is deleted as written waits
      forever on the lock the delete kept, and never reaches the entry. */
  lemma TickAfterDeleteAsWrittenWaits(g: Guarded, loop: Loop, net: Network, elapsedMs: int, now: int)
    requires g.lock == Free
    ensures TickAsWrittenLocking(DeleteServerAsWritten(g, loop.id).state, loop, net, elapsedMs, now) == Waiting
  {
  }

  /** Once the delete releases its lock before saving, a tick still pending
      reaches the missing entry: as written it panics, and `Tick` stops
      cleanly. */
  lemma TickAfterDelete(g: Guarded, loop: Loop, net: Network, elapsedMs: int, now: int)
    requires g.lock == Free
    ensures var after := DeleteServerReleasing(g, loop.id).state;
            && TickAsWrittenLocking(after, loop, net, elapsedMs, now) == Crashed
            && Tick(after.servers, loop, net, elapsedMs, now) == Stopped
  {
  }
}

=== FILE: notifications.dfy ===
/** The desktop notifier's cooldown gate (`NotificationManager`): per server
    name, the time of the last delivered notice, and a cooldown within which
    further notices for that name are dropped.  Clock readings are int
    nanosecond timestamps passed in; the desktop pop-up itself is the
    `Notice` the gate lets through. */
module Notifications {
  import opened Outcomes
  import opened Numbers
  import Durations

  /** `NotificationManager`: `lastSent` maps a server name to the time of its
      last delivered notice; `cooldown` is a Duration in nanoseconds. */
  datatype Manager = Manager(lastSent: map<string, int>, cooldown: int)

  /** A desktop notice: its title and message. */
  datatype Notice = Notice(title: string, message: string)

  const NoticeTitle: string := "Statut du serveur"

  /** `NewNotificationManager`: nothing sent yet; the cooldown is the int64
      product of the minutes and one minute, so it wraps for huge inputs. */
  function NewManager(cooldownMinutes: int): (r: Manager)
    ensures r.lastSent == map[]
    ensures InInt64(cooldownMinutes * Durations.Minute) ==> r.cooldown == cooldownMinutes * Durations.Minute
    ensures InInt64(r.cooldown)
  {
    Manager(map[], Wrap64(cooldownMinutes * Durations.Minute))
  }

  /** `time.Since(last)` at clock reading `now`: the difference, clamped to int64. */
  function Since(last: int, now: int): int {
    Saturate64(now - last)
  }

  /** The gate's decision and the manager it leaves behind. */
  datatype Decision = Decision(notify: bool, manager: Manager)

  /** `ShouldNotify`: a name never notified, or last notified more than the
      cooldown ago, passes and has its time set to `now`; any other call is
      refused and changes nothing. */
  function ShouldNotify(m: Manager, name: string, now: int): (r: Decision)
    ensures r.notify <==> name !in m.lastSent || Since(m.lastSent[name], now) > m.cooldown
    ensures r.notify ==> r.manager == m.(lastSent := m.lastSent[name := now])
    ensures !r.notify ==> r.manager == m
  {
    if name !in m.lastSent || Since(m.lastSent[name], now) > m.cooldown then
      Decision(true, m.(lastSent := m.lastSent[name := now]))
    else Decision(false, m)
  }

  /** The message of a notice: the server's name and its new status. */
  function NoticeMessage(name: string, status: string): string {
    "Le serveur " + name + " est maintenant " + status
  }

  /** `Send`: the notice is delivered exactly when the gate lets it through. */
  function Send(m: Manager, name: string, status: string, now: int): (r: (Manager, Option<Notice>))
    ensures r.0 == ShouldNotify(m, name, now).manager
    ensures r.1.Some? <==> ShouldNotify(m, name, now).notify
    ensures r.1.Some? ==> r.1.value.title == NoticeTitle
    ensures r.1.Some? ==> MessageParts(r.1.value.message, name, status)
  {
    var d := ShouldNotify(m, name, now);
    if d.notify then (d.manager, Some(Notice(NoticeTitle, NoticeMessage(name, status))))
    else (d.manager, None)
  }

  /** `msg` is made of the fixed French frame around `name` and `status`. */
  predicate MessageParts(msg: string, name: string, status: string) {
    var head := "Le serveur ";
    var mid := " est maintenant ";
    && |msg| == |head| + |name| + |mid| + |status|
    && msg[..|head|] == head
    && msg[|head|..|head| + |name|] == name
    && msg[|head| + |name|..|head| + |name| + |mid|] == mid
    && msg[|head| + |name| + |mid|..] == status
  }

  /** Sending the same name's notice at each clock reading of `times`: the
      final manager and how many notices were delivered. */
  function SendAll(m: Manager, name: string, status: string, times: seq<int>): (r: (Manager, nat))
    ensures r.1 <= |times|
    decreases |times|
  {
    if |times| == 0 then (m, 0)
    else
      var (m1, notice) := Send(m, name, status, times[0]);
      var (m2, count) := SendAll(m1, name, status, times[1..]);
      (m2, count + (if notice.Some? then 1 else 0))
  }

  // ---------------------------------------------------------------------------
  // Lemmas

  /** The first notice for a name always goes out. */
  lemma FirstNoticeDelivered(m: Manager, name: string, status: string, now: int)
    requires name !in m.lastSent
    ensures Send(m, name, status, now).1 == Some(Notice(NoticeTitle, NoticeMessage(name, status)))
    ensures Send(m, name, status, now).0.lastSent[name] == now
  {
  }

  /** A fresh manager built for `minutes`: the first notice for a name goes
      out, and a second one for that name goes out exactly when it comes more
      than `minutes` minutes after the first. */
  lemma NewManagerGatesSecondNotice(minutes: int, name: string, first: string, second: string, t0: int, t1: int)
    requires InInt64(minutes * Durations.Minute) && InInt64(t1 - t0)
    ensures Send(NewManager(minutes), name, first, t0).1.Some?
    ensures Send(Send(NewManager(minutes), name, first, t0).0, name, second, t1).1.Some?
            <==> t1 - t0 > minutes * Durations.Minute
  {
  }

  /** Within the cooldown of the last delivery nothing is sent and nothing changes. */
  lemma SuppressedWithinCooldown(m: Manager, name: string, status: string, now: int)
    requires name in m.lastSent
    requires InInt64(now - m.lastSent[name]) && now - m.lastSent[name] <= m.cooldown
    ensures Send(m, name, status, now) == (m, None)
  {
  }

  /** The gate for one name never touches another name's entry. */
  lemma NamesAreIndependent(m: Manager, name: string, other: string, now: int)
    requires other != name
    ensures other in ShouldNotify(m, name, now).manager.lastSent <==> other in m.lastSent
    ensures other in m.lastSent ==> ShouldNotify(m, name, now).manager.lastSent[other] == m.lastSent[other]
    ensures ShouldNotify(m, name, now).manager.cooldown == m.cooldown
  {
  }

  /** A burst of notices for one name, all within the cooldown of the burst's
      first clock reading and not earlier than it, delivers exactly one
      notice when the name starts unknown: the window runs from the last
      delivery, and refused attempts do not move it. */
  lemma {:induction false} BurstDeliversOnce(m: Manager, name: string, status: string, times: seq<int>)
    requires name !in m.lastSent && |times| > 0
    requires forall i :: 0 <= i < |times| ==> times[0] <= times[i] <= times[0] + m.cooldown
    requires InInt64(m.cooldown)
    ensures SendAll(m, name, status, times).1 == 1
    ensures SendAll(m, name, status, times).0 == m.(lastSent := m.lastSent[name := times[0]])
  {
    var m1 := m.(lastSent := m.lastSent[name := times[0]]);
    assert Send(m, name, status, times[0]).0 == m1;
    SuppressedBurst(m1, name, status, times[0], times[1..]);
  }

  /** Every attempt within the cooldown of the last delivery at `sent` is refused. */
  lemma {:induction false} SuppressedBurst(m: Manager, name: string, status: string, sent: int, times: seq<int>)
    requires name in m.lastSent && m.lastSent[name] == sent && InInt64(m.cooldown)
    requires forall i :: 0 <= i < |times| ==> sent <= times[i] <= sent + m.cooldown
    ensures SendAll(m, name, status, times) == (m, 0)
    decreases |times|
  {
    if |times| > 0 {
      assert InInt64(times[0] - sent);
      SuppressedWithinCooldown(m, name, status, times[0]);
      SuppressedBurst(m, name, status, sent, times[1..]);
    }
  }
}

=== FILE: numbers.dfy ===
/** Integer formatting and parsing as the two runtimes do it: Go's `%d`,
    `strconv.Atoi` and int64 arithmetic on the back end, JavaScript's
    `parseInt(v, 10)` on the front end. */
module Numbers {
  import opened Outcomes

  const TwoTo63: int := 0x8000_0000_0000_0000
  const MinInt64: int := -TwoTo63
  const MaxInt64: int := TwoTo63 - 1

  predicate InInt64(x: int) {
    MinInt64 <= x <= MaxInt64
  }

  /** An int64 product as Go computes it: the two's-complement wrap-around of `x`. */
  function Wrap64(x: int): (r: int)
    ensures InInt64(r)
    ensures (r - x) % (2 * TwoTo63) == 0
    ensures InInt64(x) ==> r == x
  {
    (x + TwoTo63) % (2 * TwoTo63) - TwoTo63
  }

  /** A value past the int64 maximum but below 2^64 wraps to that value
      less 2^64, which is negative. */
  lemma WrapAboveMax(x: int)
    requires MaxInt64 < x < 2 * TwoTo63
    ensures Wrap64(x) == x - 2 * TwoTo63 < 0
  {
    assert x + TwoTo63 == (x - 2 * TwoTo63 + TwoTo63) + 2 * TwoTo63;
  }

  /** An int64 difference as `time.Time.Sub` returns it: clamped to the int64 range. */
  function Saturate64(x: int): (r: int)
    ensures InInt64(r)
    ensures InInt64(x) ==> r == x
    ensures x < MinInt64 ==> r == MinInt64
    ensures x > MaxInt64 ==> r == MaxInt64
  {
    if x < MinInt64 then MinInt64 else if x > MaxInt64 then MaxInt64 else x
  }

  // ---------------------------------------------------------------------------
  // Decimal digits

  predicate IsDigit(c: char) {
    '0' <= c <= '9'
  }

  predicate AllDigits(s: string) {
    forall i :: 0 <= i < |s| ==> IsDigit(s[i])
  }

  function DigitValue(c: char): (d: nat)
    requires IsDigit(c)
    ensures d < 10
  {
    (c as int) - ('0' as int)
  }

  function DigitChar(d: nat): (c: char)
    requires d < 10
    ensures IsDigit(c) && DigitValue(c) == d
  {
    (('0' as int) + d) as char
  }

  /** The value of a string of decimal digits, most significant first. */
  function DigitsValue(s: string): nat
    requires AllDigits(s)
  {
    if |s| == 0 then 0 else DigitsValue(s[..|s| - 1]) * 10 + DigitValue(s[|s| - 1])
  }

  /** The shortest decimal spelling of `n`: no leading zero unless `n` is 0. */
  function DecimalDigits(n: nat): (r: string)
    ensures |r| >= 1 && AllDigits(r)
    ensures |r| > 1 ==> r[0] != '0'
    decreases n
  {
    if n < 10 then [DigitChar(n)] else DecimalDigits(n / 10) + [DigitChar(n % 10)]
  }

  /** Go's `fmt.Sprintf("%d", n)`. */
  function FormatInt(n: int): (r: string)
    ensures |r| >= 1
    ensures n < 0 <==> r[0] == '-'
    ensures AllDigits(if n < 0 then r[1..] else r)
  {
    if n < 0 then "-" + DecimalDigits(-n) else DecimalDigits(n)
  }

  /** Go's `strconv.Atoi` on a 64-bit platform: an optional `+` or `-`, then
      at least one decimal digit and nothing else, with a value that fits in
      int64; anything else is an error (`None`). */
  function Atoi(s: string): (r: Option<int>)
    ensures r.Some? ==> InInt64(r.value)
    ensures r.Some? ==> |s| > 0 && IsDigit(s[|s| - 1])
    ensures r.Some? ==> forall i :: 0 < i < |s| ==> IsDigit(s[i])
  {
    var signed := |s| > 0 && (s[0] == '+' || s[0] == '-');
    var digits := if signed then s[1..] else s;
    if |digits| == 0 || !AllDigits(digits) then None
    else
      var v: int := if signed && s[0] == '-' then -(DigitsValue(digits) as int) else DigitsValue(digits);
      if InInt64(v) then Some(v) else None
  }

  // ---------------------------------------------------------------------------
  // JavaScript parseInt

  /** JavaScript's StrWhiteSpaceChar: white space and line terminators. */
  predicate JsIsSpace(c: char) {
    c == ' ' || c == '\t' || c == '\n' || c == '\r' || c == '\U{0B}' || c == '\U{0C}'
    || c == '\U{A0}' || c == '\U{FEFF}' || c == '\U{1680}'
    || ('\U{2000}' <= c <= '\U{200A}')
    || c == '\U{2028}' || c == '\U{2029}' || c == '\U{202F}' || c == '\U{205F}' || c == '\U{3000}'
  }

  function JsTrimStart(s: string): (r: string)
    ensures |r| <= |s| && r == s[|s| - |r|..]
    ensures |r| > 0 ==> !JsIsSpace(r[0])
  {
    if |s| > 0 && JsIsSpace(s[0]) then JsTrimStart(s[1..]) else s
  }

  /** The longest prefix of `s` made of decimal digits. */
  function DigitPrefix(s: string): (r: string)
    ensures |r| <= |s| && r == s[..|r|] && AllDigits(r)
    ensures |r| < |s| ==> !IsDigit(s[|r|])
  {
    if |s| > 0 && IsDigit(s[0]) then
      var rest := DigitPrefix(s[1..]);
      assert [s[0]] + rest == s[..1 + |rest|];
      [s[0]] + rest
    else ""
  }

  /** The integer a sign-and-digits text starts with, `None` when no digit follows the sign. */
  function SignedPrefixValue(t: string): (r: Option<int>)
  {
    var negative := |t| > 0 && t[0] == '-';
    var unsigned := if |t| > 0 && (t[0] == '-' || t[0] == '+') then t[1..] else t;
    var digits := DigitPrefix(unsigned);
    if |digits| == 0 then None
    else Some(if negative then -(DigitsValue(digits) as int) else DigitsValue(digits))
  }

  /** JavaScript's `parseInt(s, 10)`, with `None` for NaN: leading white space
      is skipped, one sign is read, then the longest run of digits; whatever
      follows the digits is ignored.  `-0` is the integer 0 here. */
  function JsParseInt(s: string): (r: Option<int>)
  {
    SignedPrefixValue(JsTrimStart(s))
  }

  // ---------------------------------------------------------------------------
  // Lemmas

  /** Reading back the digits of `n` gives `n`. */
  lemma {:induction false} DigitsRoundTrip(n: nat)
    ensures DigitsValue(DecimalDigits(n)) == n
    decreases n
  {
    if n >= 10 {
      var ds := DecimalDigits(n);
      DigitsRoundTrip(n / 10);
      assert ds[..|ds| - 1] == DecimalDigits(n / 10);
    }
  }

  /** `strconv.Atoi` reads back every int64 that `%d` writes. */
  lemma AtoiFormatInt(n: int)
    requires InInt64(n)
    ensures Atoi(FormatInt(n)) == Some(n)
  {
    if n < 0 {
      AtoiFormatNegative(n);
    } else {
      AtoiFormatNonNegative(n);
    }
  }

  lemma {:induction false} AtoiFormatNonNegative(n: int)
    requires 0 <= n && InInt64(n)
    ensures Atoi(FormatInt(n)) == Some(n)
  {
    var ds := DecimalDigits(n);
    assert FormatInt(n) == ds;
    DigitsRoundTrip(n);
    assert DigitsValue(ds) == n;
    AtoiUnsigned(ds);
  }

  lemma {:induction false} AtoiFormatNegative(n: int)
    requires n < 0 && InInt64(n)
    ensures Atoi(FormatInt(n)) == Some(n)
  {
    var ds := DecimalDigits(-n);
    assert FormatInt(n) == "-" + ds;
    DigitsRoundTrip(-n);
    assert DigitsValue(ds) == -n;
    assert -(-n) == n;
    assert InInt64(-(DigitsValue(ds) as int));
    AtoiNegative(ds);
  }

  /** A plain digit string is read as its value, when that fits. */
  lemma AtoiUnsigned(ds: string)
    requires |ds| > 0 && AllDigits(ds) && InInt64(DigitsValue(ds))
    ensures Atoi(ds) == Some(DigitsValue(ds))
  {
    assert IsDigit(ds[0]);
    assert ds[0] != '+' && ds[0] != '-';
  }

  /** A minus sign and a digit string is read as the negated value, when that fits. */
  lemma AtoiNegative(ds: string)
    requires |ds| > 0 && AllDigits(ds) && InInt64(-(DigitsValue(ds) as int))
    ensures Atoi("-" + ds) == Some(-(DigitsValue(ds) as int))
  {
    var s := "-" + ds;
    assert s[0] == '-';
    assert s[1..] == ds;
  }

  /** The digits of a run followed by a non-digit are exactly the run. */
  lemma {:induction false} DigitPrefixOfDigits(ds: string, rest: string)
    requires AllDigits(ds)
    requires |rest| == 0 || !IsDigit(rest[0])
    ensures DigitPrefix(ds + rest) == ds
    decreases |ds|
  {
    if |ds| > 0 {
      assert (ds + rest)[1..] == ds[1..] + rest;
      DigitPrefixOfDigits(ds[1..], rest);
      assert [ds[0]] + ds[1..] == ds;
    } else {
      assert ds + rest == rest;
    }
  }

  lemma TrimStartAtDigit(s: string)
    requires |s| > 0 && IsDigit(s[0])
    ensures JsTrimStart(s) == s
  {
    assert !JsIsSpace(s[0]);
  }

  /** A digit string before a non-digit is read as its value. */
  lemma {:induction false} JsParseIntDigits(ds: string, rest: string)
    requires |ds| > 0 && AllDigits(ds)
    requires |rest| == 0 || !IsDigit(rest[0])
    ensures JsParseInt(ds + rest) == Some(DigitsValue(ds))
  {
    var s := ds + rest;
    assert s[0] == ds[0];
    TrimStartAtDigit(s);
    assert s[0] != '-' && s[0] != '+';
    DigitPrefixOfDigits(ds, rest);
  }

  /** A minus sign, then a digit string before a non-digit, is read as the negated value. */
  lemma {:induction false} JsParseIntNegated(ds: string, rest: string)
    requires |ds| > 0 && AllDigits(ds)
    requires |rest| == 0 || !IsDigit(rest[0])
    ensures JsParseInt("-" + ds + rest) == Some(-(DigitsValue(ds) as int))
  {
    var s := "-" + ds + rest;
    assert s[0] == '-';
    assert JsTrimStart(s) == s;
    assert s[1..] == ds + rest;
    DigitPrefixOfDigits(ds, rest);
  }

  /** `parseInt` reads the integer at the head of its input and ignores what
      follows a non-digit: `parseInt("15.9", 10)` is 15. */
  lemma {:induction false} JsParseIntFormatInt(n: int, rest: string)
    requires |rest| == 0 || !IsDigit(rest[0])
    ensures JsParseInt(FormatInt(n) + rest) == Some(n)
  {
    if n < 0 {
      JsParseIntFormatNegative(n, rest);
    } else {
      JsParseIntFormatNonNegative(n, rest);
    }
  }

  /** The non-negative half of `JsParseIntFormatInt`. */
  lemma {:induction false} JsParseIntFormatNonNegative(n: int, rest: string)
    requires n >= 0
    requires |rest| == 0 || !IsDigit(rest[0])
    ensures JsParseInt(FormatInt(n) + rest) == Some(n)
  {
    var ds := DecimalDigits(n);
    assert FormatInt(n) == ds;
    DigitsRoundTrip(n);
    assert DigitsValue(ds) == n;
    JsParseIntDigits(ds, rest);
  }

  /** The negative half of `JsParseIntFormatInt`: `%d` writes a minus sign
      and the digits of `-n`. */
  lemma {:induction false} JsParseIntFormatNegative(n: int, rest: string)
    requires n < 0
    requires |rest| == 0 || !IsDigit(rest[0])
    ensures JsParseInt(FormatInt(n) + rest) == Some(n)
  {
    var ds := DecimalDigits(-n);
    assert FormatInt(n) == "-" + ds;
    DigitsRoundTrip(-n);
    assert DigitsValue(ds) == -n;
    assert -(-n) == n;
    JsParseIntNegated(ds, rest);
    assert FormatInt(n) + rest == "-" + ds + rest;
  }
}

=== FILE: outcomes.dfy ===
/** Option and Result: the model's stand-ins for Go's `(value, error)` returns
    and JavaScript's `undefined`. */
module Outcomes {

  datatype Option<+T> = None | Some(value: T) {

    /** The wrapped value, or `default` when there is none. */
    function GetOr(default: T): T {
      match this
      case Some(v) => v
      case None => default
    }
  }

  datatype Result<+T, +E> = Ok(value: T) | Err(error: E) {

    /** Go's convention: on error the value returned beside it is `zero`. */
    function ValueOr(zero: T): T {
      match this
      case Ok(v) => v
      case Err(_) => zero
    }
  }
}

=== FILE: probes.dfy ===
/** `CheckServer` and its three probes.  What the network answers is an
    input: `Network` says, for a target and a timeout, what `http.Client.Get`,
    `net.DialTimeout` and the `ping` command report.  The elapsed time in
    milliseconds and the clock reading are inputs too. */
module Probes {
  import opened Outcomes
  import opened Text
  import opened Registry
  import Numbers
  import Durations

  /** The answer of an HTTP GET: a transport error, or a response with a status code. */
  datatype HttpOutcome = TransportError(message: string) | Response(statusCode: int)

  /** What the network does with each kind of probe; `dial` yields the error text, if any. */
  datatype Network = Network(
    get: (string, int) -> HttpOutcome,
    dial: (string, int) -> Option<string>,
    ping: (string, int) -> bool)

  const UnsupportedType: string := "Type de serveur non support\U{E9}"
  const PingFailed: string := "Ping failed"

  /** `checkHTTP`: a transport error is a failure with its text; otherwise the
      server is up exactly when the code is below 400, and a code of 400 or
      more is reported as `HTTP <code>`. */
  function CheckHttp(outcome: HttpOutcome, elapsedMs: int, now: int): (r: ServerStatus)
    ensures r.responseTimeMs == elapsedMs && r.lastCheck == now
    ensures outcome.TransportError? ==> !r.isUp && r.lastError == outcome.message
    ensures outcome.Response? ==> (r.isUp <==> outcome.statusCode < 400)
    ensures outcome.Response? ==> (r.lastError != "" <==> outcome.statusCode >= 400)
    ensures outcome.Response? && outcome.statusCode >= 400
            ==> r.lastError == "HTTP " + Numbers.FormatInt(outcome.statusCode)
  {
    match outcome
    case TransportError(message) => ServerStatus(false, elapsedMs, now, message)
    case Response(code) =>
      ServerStatus(code < 400, elapsedMs, now, if code >= 400 then "HTTP " + Numbers.FormatInt(code) else "")
  }

  /** `checkTCP`: up exactly when the dial succeeds; a failed dial reports its error text. */
  function CheckTcp(dialError: Option<string>, elapsedMs: int, now: int): (r: ServerStatus)
    ensures r.responseTimeMs == elapsedMs && r.lastCheck == now
    ensures r.isUp <==> dialError.None?
    ensures dialError.Some? ==> r.lastError == dialError.value
    ensures dialError.None? ==> r.lastError == ""
  {
    match dialError
    case Some(e) => ServerStatus(false, elapsedMs, now, e)
    case None => ServerStatus(true, elapsedMs, now, "")
  }

  /** The host `checkPing` pings: for a URL with `://`, the second piece of
      `strings.Split(url, "://")`, then the first piece of splitting that on
      `/` and then on `:`; any other address unchanged. */
  function PingHost(url: string): (r: string)
    ensures !Contains(url, "://") ==> r == url
    ensures Contains(url, "://") ==> !Contains(r, ":") && !Contains(r, "/")
  {
    if Contains(url, "://") then
      var second := Before(After(url, "://"), "://");
      var path := Before(second, "/");
      var host := Before(path, ":");
      BeforeKeepsAbsence(path, ":", "/");
      host
    else url
  }

  /** `checkPing`: up exactly when the ping command succeeds. */
  function CheckPing(succeeded: bool, elapsedMs: int, now: int): (r: ServerStatus)
    ensures r.responseTimeMs == elapsedMs && r.lastCheck == now
    ensures r.isUp <==> succeeded
    ensures r.lastError == (if succeeded then "" else PingFailed)
  {
    ServerStatus(succeeded, elapsedMs, now, if succeeded then "" else PingFailed)
  }

  /** `CheckServer`: dispatch on the probe type; an unsupported type is a
      failure with a fixed message, no response time, and no probe at all. */
  function CheckServer(server: Server, timeout: int, net: Network, elapsedMs: int, now: int): (r: ServerStatus)
    ensures r.lastCheck == now
    ensures r.isUp ==> r.lastError == ""
    ensures !SupportedType(server.kind) ==> r == ServerStatus(false, 0, now, UnsupportedType)
    ensures server.kind == "http"
            ==> (r.isUp <==> net.get(server.url, timeout).Response? && net.get(server.url, timeout).statusCode < 400)
    ensures server.kind == "tcp" ==> (r.isUp <==> net.dial(server.url, timeout).None?)
    ensures server.kind == "ping" ==> (r.isUp <==> net.ping(PingHost(server.url), timeout))
    ensures server.kind == "http" ==> r == CheckHttp(net.get(server.url, timeout), elapsedMs, now)
    ensures server.kind == "tcp" ==> r == CheckTcp(net.dial(server.url, timeout), elapsedMs, now)
    ensures server.kind == "ping" ==> r == CheckPing(net.ping(PingHost(server.url), timeout), elapsedMs, now)
  {
    match server.kind
    case "http" => CheckHttp(net.get(server.url, timeout), elapsedMs, now)
    case "tcp" => CheckTcp(net.dial(server.url, timeout), elapsedMs, now)
    case "ping" => CheckPing(net.ping(PingHost(server.url), timeout), elapsedMs, now)
    case _ => ServerStatus(false, 0, now, UnsupportedType)
  }

  /** `ManualCheck`: probes with the server's timeout (10 s when it does not
      parse) and returns the status without storing it. */
  function ManualCheck(server: Server, library: string -> Result<int, string>, net: Network,
                       elapsedMs: int, now: int): (r: ServerStatus)
    ensures Durations.ParseDuration(server.timeout, library).Err?
            ==> r == CheckServer(server, Durations.DefaultTimeout, net, elapsedMs, now)
    ensures Durations.ParseDuration(server.timeout, library).Ok?
            ==> r == CheckServer(server, Durations.ParseDuration(server.timeout, library).value, net, elapsedMs, now)
  {
    CheckServer(server, Durations.MonitorTimeout(server.timeout, library), net, elapsedMs, now)
  }

  // ---------------------------------------------------------------------------
  // Lemmas

  /** Cutting a text at a separator cannot introduce a text it did not contain. */
  lemma BeforeKeepsAbsence(s: string, sep: string, absent: string)
    requires sep != "" && absent != ""
    ensures !Contains(s, absent) ==> !Contains(Before(s, sep), absent)
  {
    if Contains(s, sep) && !Contains(s, absent) {
      var i := IndexOf(s, sep).value;
      forall j: nat | OccursAt(s[..i], absent, j)
        ensures OccursAt(s, absent, j)
      {
        assert s[..i][j..j + |absent|] == s[j..j + |absent|];
      }
    }
  }

  /** Cutting at a second `://` before cutting at `/` and `:` changes
      nothing: the `/` inside `://` already ends the host. */
  lemma CutAtSlashAbsorbsSecondScheme(r: string)
    ensures Before(Before(Before(r, "://"), "/"), ":") == Before(Before(r, "/"), ":")
  {
    if Contains(r, "://") {
      var p := IndexOf(r, "://").value;
      var t := r[..p];
      assert Before(r, "://") == t;
      assert OccursAt(r, "/", p + 1) by {
        assert r[p..p + 3] == "://";
        assert r[p + 1] == r[p..p + 3][1] == '/';
        assert r[p + 1..p + 2] == [r[p + 1]];
      }
      var q := IndexOf(r, "/").value;
      assert q <= p + 1;
      assert q != p by {
        assert r[p] == r[p..p + 3][0] == ':';
        assert r[q] == r[q..q + 1][0] == '/';
      }
      Text.IndexOfPrefix(r, "/", p);
      if q < p {
        assert Before(t, "/") == t[..q] == r[..q];
        assert Before(r, "/") == r[..q];
      } else {
        assert q == p + 1;
        assert !Contains(t, "/");
        assert Before(t, "/") == t;
        var u := r[..p + 1];
        assert Before(r, "/") == u;
        assert u == t + ":" by {
          assert r[p..p + 3] == "://";
          assert r[p] == r[p..p + 3][0] == ':';
          assert u == r[..p] + [r[p]];
        }
        ColonCutIgnoresTrailingColon(t);
      }
    }
  }

  /** Cutting at `:` gives the same host whether or not one more `:` follows. */
  lemma ColonCutIgnoresTrailingColon(t: string)
    ensures Before(t + ":", ":") == Before(t, ":")
  {
    var u := t + ":";
    assert u[..|t|] == t;
    Text.IndexOfPrefix(u, ":", |t|);
    if !Contains(t, ":") {
      assert OccursAt(u, ":", |t|) by {
        assert u[|t|..|t| + 1] == ":";
      }
    } else {
      var c := IndexOf(t, ":").value;
      assert u[c..c + 1] == t[c..c + 1];
    }
  }

  /** The ping host is the text after the first `://`, cut at its first `/`
      and then at its first `:`. */
  lemma PingHostCutsAfterScheme(url: string)
    requires Contains(url, "://")
    ensures PingHost(url) == Before(Before(After(url, "://"), "/"), ":")
  {
    CutAtSlashAbsorbsSecondScheme(After(url, "://"));
  }

  /** Exactly the servers validation accepts are probed: only a probe
      reports the elapsed time, while the unsupported-type answer reports none. */
  lemma ValidatedServerIsProbed(s: Server, timeout: int, net: Network, elapsedMs: int, now: int)
    requires elapsedMs != 0 && s.name != "" && s.url != ""
    ensures CheckServer(s, timeout, net, elapsedMs, now).responseTimeMs == elapsedMs
            <==> ValidateServer(s).None?
    ensures ValidateServer(s).Some? ==> CheckServer(s, timeout, net, elapsedMs, now).lastError == UnsupportedType
  {
  }

  /** The code in an `HTTP <code>` error reads back as the response's status code. */
  lemma HttpErrorNamesCode(code: int, elapsedMs: int, now: int)
    requires 400 <= code <= Numbers.MaxInt64
    ensures Numbers.Atoi(TrimPrefix(CheckHttp(Response(code), elapsedMs, now).lastError, "HTTP "))
            == Some(code)
  {
    var e := CheckHttp(Response(code), elapsedMs, now).lastError;
    assert HasPrefix(e, "HTTP ") by {
      assert e[..5] == "HTTP ";
    }
    assert TrimPrefix(e, "HTTP ") == Numbers.FormatInt(code);
    Numbers.AtoiFormatInt(code);
  }
}

=== FILE: registry.dfy ===
/** The server registry of `App`/`Monitor`: a map from server id to server
    record, and the operations the front end calls on it.  Each operation is
    first the map it leaves behind; the monitor's lock is then added only as
    far as it decides whether a call returns at all.  The per-server stop
    channels and the contents of the `servers.json` write are left out. */
module Registry {
  import opened Outcomes
  import Numbers

  /** `ServerStatus`; `lastCheck` is an abstract timestamp (0 for Go's zero time). */
  datatype ServerStatus = ServerStatus(isUp: bool, responseTimeMs: int, lastCheck: int, lastError: string)

  /** The status a server record carries before its first probe. */
  const ZeroStatus := ServerStatus(false, 0, 0, "")

  /** `Server`: the probe type, interval and timeout are kept as the strings the front end sends. */
  datatype Server = Server(
    id: string,
    name: string,
    url: string,
    kind: string,
    interval: string,
    timeout: string,
    status: ServerStatus)

  type Servers = map<string, Server>

  datatype ServerError = NameRequired | UrlRequired | InvalidType | IdRequired

  /** The error texts the operations return. */
  function Message(e: ServerError): string {
    match e
    case NameRequired => "nom du serveur requis"
    case UrlRequired => "URL du serveur requise"
    case InvalidType => "type de serveur invalide"
    case IdRequired => "ID du serveur requis pour la mise \U{E0} jour"
  }

  predicate SupportedType(kind: string) {
    kind == "http" || kind == "tcp" || kind == "ping"
  }

  /** `validateServer`: name, then URL, then probe type; nothing else is looked at. */
  function ValidateServer(s: Server): (r: Option<ServerError>)
    ensures r.None? <==> s.name != "" && s.url != "" && SupportedType(s.kind)
    ensures s.name == "" ==> r == Some(NameRequired)
    ensures s.name != "" && s.url == "" ==> r == Some(UrlRequired)
    ensures s.name != "" && s.url != "" && !SupportedType(s.kind) ==> r == Some(InvalidType)
  {
    if s.name == "" then Some(NameRequired)
    else if s.url == "" then Some(UrlRequired)
    else if !SupportedType(s.kind) then Some(InvalidType)
    else None
  }

  /** `after` is `before` with `key` bound to `value` and every other entry as it was. */
  predicate Upserted(before: Servers, after: Servers, key: string, value: Server) {
    && after.Keys == before.Keys + {key}
    && after[key] == value
    && forall k :: k in before && k != key ==> after[k] == before[k]
  }

  /** What an Add or Update call returns (the server and the error) and the registry it leaves. */
  datatype Reply = Reply(server: Server, error: Option<ServerError>, servers: Servers)

  /** `AddServer`: a missing id becomes the decimal clock reading `nowNanos`
      (`time.Now().UnixNano()`), then the server is validated and, when valid,
      stored under its id, replacing any server already there. */
  function AddServer(servers: Servers, server: Server, nowNanos: int): (r: Reply)
    ensures r.server.id != ""
    ensures r.server == server.(id := r.server.id)
    ensures server.id != "" ==> r.server.id == server.id
    ensures r.error == ValidateServer(server)
    ensures r.error.Some? ==> r.servers == servers
    ensures r.error.None? ==> Upserted(servers, r.servers, r.server.id, r.server)
  {
    var named := if server.id == "" then server.(id := Numbers.FormatInt(nowNanos)) else server;
    match ValidateServer(named)
    case Some(e) => Reply(named, Some(e), servers)
    case None => Reply(named, None, servers[named.id := named])
  }

  /** `UpdateServer`: an empty id is refused before validation; otherwise the
      whole record, status included, is stored under its id whether or not
      that id was present. */
  function UpdateServer(servers: Servers, server: Server): (r: Reply)
    ensures r.server == server
    ensures server.id == "" ==> r.error == Some(IdRequired) && r.servers == servers
    ensures server.id != "" ==> r.error == ValidateServer(server)
    ensures r.error.Some? ==> r.servers == servers
    ensures r.error.None? ==> Upserted(servers, r.servers, server.id, server)
  {
    if server.id == "" then Reply(server, Some(IdRequired), servers)
    else
      match ValidateServer(server)
      case Some(e) => Reply(server, Some(e), servers)
      case None => Reply(server, None, servers[server.id := server])
  }

  /** `DeleteServer`: removes `id` if present and never reports an error. */
  function DeleteServer(servers: Servers, id: string): (r: Servers)
    ensures r.Keys == servers.Keys - {id}
    ensures forall k :: k in r ==> r[k] == servers[k]
  {
    servers - {id}
  }

  /** `updateServerStatus`: replaces the status of a server that is still
      registered; an id that is gone is ignored. */
  function UpdateServerStatus(servers: Servers, id: string, status: ServerStatus): (r: Servers)
    ensures r.Keys == servers.Keys
    ensures id in servers ==> r[id] == servers[id].(status := status)
    ensures forall k :: k in servers && k != id ==> r[k] == servers[k]
  {
    if id in servers then servers[id := servers[id].(status := status)] else servers
  }

  // ---------------------------------------------------------------------------
  // The monitor's lock

  /** `Monitor.mutex`, a `sync.RWMutex`, which is not reentrant: `Free`
      between calls, `HeldForGood` once a writer holding it asks for it again
      and so never releases it. */
  datatype Lock = Free | HeldForGood

  /** The registry together with the lock that guards it. */
  datatype Guarded = Guarded(servers: Servers, lock: Lock)

  /** How a call ends: it returns, or it waits forever.  Either way `state`
      is what the rest of the program sees from then on. */
  datatype Ending = Returned(state: Guarded) | Hangs(state: Guarded)

  /** A call that takes the lock, for reading or for writing, runs `step` on
      the registry and releases the lock.  A lock held for good makes it wait
      forever, having changed nothing. */
  function Locked(g: Guarded, step: Servers -> Servers): (r: Ending)
    ensures r.Returned? <==> g.lock == Free
    ensures r.Returned? ==> r.state == Guarded(step(g.servers), Free)
    ensures r.Hangs? ==> r.state == g
  {
    if g.lock == Free then Returned(Guarded(step(g.servers), Free)) else Hangs(g)
  }

  /** A call that only reads under the read lock: `GetServers`, and
      `SaveServersToFile`, whose file write is left out. */
  function ReadLocked(g: Guarded): (r: Ending)
    ensures r.Returned? <==> g.lock == Free
    ensures r.state == g
  {
    Locked(g, s => s)
  }

  /** `AddServer` with its locking: a rejected server returns before the lock
      is taken; an accepted one is stored under the write lock, which is
      released before the file is saved under the read lock. */
  function AddServerCall(g: Guarded, server: Server, nowNanos: int): (r: Ending)
    ensures r.Returned? <==> g.lock == Free || AddServer(g.servers, server, nowNanos).error.Some?
    ensures r.Returned? ==> r.state == g.(servers := AddServer(g.servers, server, nowNanos).servers)
    ensures r.Hangs? ==> r.state == g
  {
    if AddServer(g.servers, server, nowNanos).error.Some? then Returned(g)
    else
      match Locked(g, s => AddServer(s, server, nowNanos).servers)
      case Hangs(h) => Hangs(h)
      case Returned(stored) => ReadLocked(stored)
  }

  /** `UpdateServer` with its locking, in the same order as `AddServerCall`. */
  function UpdateServerCall(g: Guarded, server: Server): (r: Ending)
    ensures r.Returned? <==> g.lock == Free || UpdateServer(g.servers, server).error.Some?
    ensures r.Returned? ==> r.state == g.(servers := UpdateServer(g.servers, server).servers)
    ensures r.Hangs? ==> r.state == g
  {
    if UpdateServer(g.servers, server).error.Some? then Returned(g)
    else
      match Locked(g, s => UpdateServer(s, server).servers)
      case Hangs(h) => Hangs(h)
      case Returned(stored) => ReadLocked(stored)
  }

  /** `updateServerStatus` with its write lock. */
  function UpdateServerStatusCall(g: Guarded, id: string, status: ServerStatus): (r: Ending)
    ensures r.Returned? <==> g.lock == Free
    ensures r.Returned? ==> r.state.servers == UpdateServerStatus(g.servers, id, status)
    ensures r.state.lock == g.lock
  {
    Locked(g, s => UpdateServerStatus(s, id, status))
  }

  /** `DeleteServer` as written: it takes the write lock and defers its
      release, removes the entry, and calls `SaveServersToFile` while still
      holding it.  The read lock the save asks for waits on that writer, so
      the call never returns and the lock is never released. */
  function DeleteServerAsWritten(g: Guarded, id: string): (r: Ending)
    ensures r.Hangs?
    ensures g.lock == Free ==> r.state == Guarded(DeleteServer(g.servers, id), HeldForGood)
    ensures g.lock == HeldForGood ==> r.state == g
  {
    if g.lock == HeldForGood then Hangs(g)
    else ReadLocked(Guarded(DeleteServer(g.servers, id), HeldForGood))
  }

  /** `DeleteServer` releasing the lock before it saves, as `UpdateServer` does. */
  function DeleteServerReleasing(g: Guarded, id: string): (r: Ending)
    ensures r.Returned? <==> g.lock == Free
    ensures r.Returned? ==> r.state == Guarded(DeleteServer(g.servers, id), Free)
    ensures r.Hangs? ==> r.state == g
  {
    match Locked(g, s => DeleteServer(s, id))
    case Hangs(h) => Hangs(h)
    case Returned(removed) => ReadLocked(removed)
  }

  // ---------------------------------------------------------------------------
  // Lemmas

  /** Validation never looks at the id, interval, timeout or status. */
  lemma ValidationIgnoresSchedule(s: Server, id: string, interval: string, timeout: string, status: ServerStatus)
    ensures ValidateServer(s.(id := id, interval := interval, timeout := timeout, status := status))
            == ValidateServer(s)
  {
  }

  /** A generated id is the clock reading in decimal: it reads back as that number. */
  lemma GeneratedIdIsClockReading(servers: Servers, server: Server, nowNanos: int)
    requires server.id == "" && Numbers.InInt64(nowNanos)
    ensures Numbers.Atoi(AddServer(servers, server, nowNanos).server.id) == Some(nowNanos)
  {
    Numbers.AtoiFormatInt(nowNanos);
  }

  /** With an id given, Update and Add return the same server and error and
      leave the same map: there is no not-found check.  (The monitoring loops
      they start afterwards differ: only Update stops the old one.) */
  lemma UpdateIsAddWhenIdGiven(servers: Servers, server: Server, nowNanos: int)
    requires server.id != ""
    ensures UpdateServer(servers, server) == AddServer(servers, server, nowNanos)
  {
  }

  /** Adding a server under a fresh id and deleting it again restores the registry. */
  lemma AddThenDelete(servers: Servers, server: Server, nowNanos: int)
    requires AddServer(servers, server, nowNanos).error.None?
    requires AddServer(servers, server, nowNanos).server.id !in servers
    ensures DeleteServer(AddServer(servers, server, nowNanos).servers,
                         AddServer(servers, server, nowNanos).server.id) == servers
  {
    var r := AddServer(servers, server, nowNanos);
    var d := DeleteServer(r.servers, r.server.id);
    assert d.Keys == servers.Keys;
  }

  /** Deleting twice is deleting once: for the map, for the delete that
      releases its lock, and for the delete as written, whose second call
      waits on the lock the first one kept and changes nothing. */
  lemma DeleteIdempotent(g: Guarded, id: string)
    ensures DeleteServer(DeleteServer(g.servers, id), id) == DeleteServer(g.servers, id)
    ensures DeleteServerReleasing(DeleteServerReleasing(g, id).state, id) == DeleteServerReleasing(g, id)
    ensures DeleteServerAsWritten(DeleteServerAsWritten(g, id).state, id) == DeleteServerAsWritten(g, id)
  {
  }

  /** After a delete as written, no call that needs the lock ever completes:
      reads and saves, status write-backs, later deletes, and any add or
      update that passes validation.  Only a rejected add or update still
      returns its error, because it fails before asking for the lock. */
  lemma NothingCompletesAfterDelete(g: Guarded, id: string, other: string, server: Server,
                                    nowNanos: int, status: ServerStatus)
    requires g.lock == Free
    ensures DeleteServerAsWritten(g, id).state.servers == DeleteServer(g.servers, id)
    ensures var after := DeleteServerAsWritten(g, id).state;
            && ReadLocked(after).Hangs?
            && UpdateServerStatusCall(after, other, status).Hangs?
            && DeleteServerAsWritten(after, other).Hangs?
            && DeleteServerReleasing(after, other).Hangs?
            && (AddServerCall(after, server, nowNanos).Hangs? <==> ValidateServer(server.(id := AddServer(after.servers, server, nowNanos).server.id)).None?)
            && (UpdateServerCall(after, server).Hangs? <==> server.id != "" && ValidateServer(server).None?)
  {
  }

  /** Once the delete releases its lock, the registry is usable again: the
      next call on it returns as it would have before the delete. */
  lemma ReleasingDeleteLeavesLockFree(g: Guarded, id: string, server: Server, nowNanos: int)
    requires g.lock == Free
    ensures var after := DeleteServerReleasing(g, id).state;
            && ReadLocked(after).Returned?
            && AddServerCall(after, server, nowNanos).Returned?
            && UpdateServerCall(after, server).Returned?
  {
  }

  /** A probe result that arrives after its server was deleted changes
      nothing; it can arrive only once the delete has released its lock. */
  lemma StatusAfterDeleteIsDropped(servers: Servers, id: string, status: ServerStatus)
    ensures UpdateServerStatus(DeleteServer(servers, id), id, status) == DeleteServer(servers, id)
  {
  }

  /** An accepted update replaces the stored status with the one the caller sent. */
  lemma UpdateReplacesStatus(servers: Servers, server: Server)
    requires UpdateServer(servers, server).error.None?
    ensures UpdateServer(servers, server).servers[server.id].status == server.status
  {
  }
}

=== FILE: settings.dfy ===
/** The persisted user preferences of the back end (`backend.Settings`),
    their defaults, and the branches of `LoadSettings`.  The settings file is
    an abstract `FileState`: missing, unreadable, not valid JSON, or a JSON
    object whose known fields may each be present or absent.  The
    `SMTPConfig` and `UserEmail` fields the application reads are part of
    the record, with Go's zero values when they are absent. */
module SettingsStore {
  import opened Outcomes

  /** The SMTP relay configuration the application forwards mail through. */
  datatype SmtpConfig = SmtpConfig(
    host: string,
    port: int,
    username: string,
    password: string,
    from: string,
    tls: bool)

  const ZeroSmtp := SmtpConfig("", 0, "", "", "", false)

  datatype Settings = Settings(
    theme: string,
    notificationMode: string,
    notificationCooldown: int,
    refreshInterval: int,
    userEmail: string,
    smtp: SmtpConfig)

  /** `DefaultSettings`: theme "auto", in-app notifications, a 10-minute
      cooldown; the refresh interval, e-mail and SMTP settings keep their
      zero values. */
  const DefaultSettings := Settings("auto", "inapp", 10, 0, "", ZeroSmtp)

  /** A decoded settings object: each known field present (`Some`) or absent
      or `null` (`None`); unknown fields are ignored and not represented. */
  datatype Document = Document(
    theme: Option<string>,
    notificationMode: Option<string>,
    notificationCooldown: Option<int>,
    refreshInterval: Option<int>,
    userEmail: Option<string>,
    smtp: Option<SmtpConfig>)

  const EmptyDocument := Document(None, None, None, None, None, None)

  /** What `os.Stat`, `os.ReadFile` and `json.Unmarshal` find at the settings path. */
  datatype FileState =
    | Missing
    | Unreadable(readError: string)
    | Malformed(parseError: string)
    | Parsed(document: Document)

  /** `json.Unmarshal` into a zero `Settings`: present fields are taken, absent ones stay zero. */
  function Decode(d: Document): (s: Settings)
    ensures d.theme.Some? ==> s.theme == d.theme.value
    ensures d.theme.None? ==> s.theme == ""
    ensures d.notificationMode.Some? ==> s.notificationMode == d.notificationMode.value
    ensures d.notificationMode.None? ==> s.notificationMode == ""
    ensures d.notificationCooldown.Some? ==> s.notificationCooldown == d.notificationCooldown.value
    ensures d.notificationCooldown.None? ==> s.notificationCooldown == 0
    ensures d.refreshInterval.Some? ==> s.refreshInterval == d.refreshInterval.value
    ensures d.refreshInterval.None? ==> s.refreshInterval == 0
    ensures d.userEmail.Some? ==> s.userEmail == d.userEmail.value
    ensures d.userEmail.None? ==> s.userEmail == ""
    ensures d.smtp.Some? ==> s.smtp == d.smtp.value
    ensures d.smtp.None? ==> s.smtp == ZeroSmtp
  {
    Settings(
      d.theme.GetOr(""),
      d.notificationMode.GetOr(""),
      d.notificationCooldown.GetOr(0),
      d.refreshInterval.GetOr(0),
      d.userEmail.GetOr(""),
      d.smtp.GetOr(ZeroSmtp))
  }

  /** `json.MarshalIndent` of a `Settings`: every field is written. */
  function Encode(s: Settings): (d: Document)
    ensures d.theme.Some? && d.notificationMode.Some? && d.notificationCooldown.Some?
    ensures d.refreshInterval.Some? && d.userEmail.Some? && d.smtp.Some?
  {
    Document(Some(s.theme), Some(s.notificationMode), Some(s.notificationCooldown),
             Some(s.refreshInterval), Some(s.userEmail), Some(s.smtp))
  }

  /** The file `SaveSettings` leaves behind when its write succeeds. */
  function Stored(s: Settings): FileState {
    Parsed(Encode(s))
  }

  /** `LoadSettings`: a missing file gives the defaults and no error; a read
      or parse failure gives the defaults together with that error; a parsed
      file gives exactly what it decodes to, not merged with the defaults. */
  function LoadSettings(file: FileState): (r: (Settings, Option<string>))
    ensures r.1.Some? ==> r.0 == DefaultSettings
    ensures file.Missing? ==> r == (DefaultSettings, None)
    ensures file.Unreadable? ==> r.1 == Some(file.readError)
    ensures file.Malformed? ==> r.1 == Some(file.parseError)
    ensures file.Parsed? ==> r == (Decode(file.document), None)
  {
    match file
    case Missing => (DefaultSettings, None)
    case Unreadable(e) => (DefaultSettings, Some(e))
    case Malformed(e) => (DefaultSettings, Some(e))
    case Parsed(d) => (Decode(d), None)
  }

  // ---------------------------------------------------------------------------
  // Lemmas

  /** Decoding what was encoded gives the settings back. */
  lemma DecodeEncode(s: Settings)
    ensures Decode(Encode(s)) == s
  {
  }

  /** Loading the file that a successful save wrote gives back the saved settings, without error. */
  lemma LoadAfterStore(s: Settings)
    ensures LoadSettings(Stored(s)) == (s, None)
  {
    DecodeEncode(s);
  }

  /** An error is reported exactly for an unreadable or malformed file, and then the defaults are used. */
  lemma LoadErrorIffBrokenFile(file: FileState)
    ensures LoadSettings(file).1.Some? <==> file.Unreadable? || file.Malformed?
    ensures file.Unreadable? || file.Malformed? ==> LoadSettings(file).0 == DefaultSettings
  {
  }

  /** A parsed `{}` is not the defaults: its theme and mode are empty and its cooldown is 0. */
  lemma EmptyFileIsNotDefaults()
    ensures LoadSettings(Parsed(EmptyDocument)) == (Settings("", "", 0, 0, "", ZeroSmtp), None)
    ensures LoadSettings(Parsed(EmptyDocument)).0 != DefaultSettings
  {
  }

  /** A file that only sets the theme loses the default mode and cooldown. */
  lemma PartialFileIsNotMerged(theme: string)
    ensures var s := LoadSettings(Parsed(EmptyDocument.(theme := Some(theme)))).0;
            s.theme == theme && s.notificationMode == "" && s.notificationCooldown == 0
  {
  }
}

=== FILE: settings_form.dfy ===
/** The settings panel of the front end (`Settings` component): the form
    state, the snapshot of the values it was opened with, and the handlers
    that change them.  Back-end calls are inputs: what `GetSettings`
    returned, whether `SaveSettings` and `SendTestEmail` resolved.  JSX
    rendering and React scheduling are left out; each handler is the state
    it leaves behind. */
module SettingsForm {
  import opened Outcomes
  import opened Numbers
  import opened SettingsStore
  import AppSettings

  const Themes: set<string> := {"auto", "light", "dark"}
  const Modes: set<string> := {"inapp", "email", "none"}

  /** The SMTP object the form starts with and falls back on. */
  const DefaultSmtp := SmtpConfig("", 587, "", "", "", true)

  /** The values the form edits. */
  datatype Form = Form(
    theme: string,
    mode: string,
    cooldown: int,
    refresh: int,
    userEmail: string,
    smtp: SmtpConfig)

  /** The form's initial state, which "reset to defaults" also restores. */
  const DefaultForm := Form("auto", "inapp", 10, 60, "", DefaultSmtp)

  /** The values the form keeps after loading: a known theme and mode, a
      non-negative cooldown, a refresh interval of at least 10 seconds. */
  predicate WellFormed(f: Form) {
    f.theme in Themes && f.mode in Modes && f.cooldown >= 0 && f.refresh >= 10
  }

  /** A JavaScript value as far as the checks look at it (numbers are integers here). */
  datatype JsValue = Undefined | Null | Bool(b: bool) | Num(n: int) | Str(s: string)

  /** The properties of the object `GetSettings` resolves to; for the e-mail
      and the SMTP object `None` stands for an absent, `undefined` or `null` property. */
  datatype Fetched = Fetched(
    theme: JsValue,
    mode: JsValue,
    cooldown: JsValue,
    refresh: JsValue,
    userEmail: Option<string>,
    smtp: Option<SmtpConfig>)

  /** How the back end's settings arrive in the front end. */
  function FromSettings(s: Settings): Fetched {
    Fetched(Str(s.theme), Str(s.notificationMode), Num(s.notificationCooldown),
            Num(s.refreshInterval), Some(s.userEmail), Some(s.smtp))
  }

  /** How the form is sent to `SaveSettings`. */
  function ToSettings(f: Form): Settings {
    Settings(f.theme, f.mode, f.cooldown, f.refresh, f.userEmail, f.smtp)
  }

  /** The load validation: a theme or mode outside its set becomes "auto" or
      "inapp"; a cooldown is kept when it is a number of at least 0 (else 10),
      a refresh interval when it is a number of at least 10 (else 60); an
      empty or missing e-mail becomes "", a missing SMTP object the default one. */
  function Normalize(x: Fetched): (f: Form)
    ensures WellFormed(f)
    ensures x.theme.Str? && x.theme.s in Themes ==> f.theme == x.theme.s
    ensures !(x.theme.Str? && x.theme.s in Themes) ==> f.theme == "auto"
    ensures x.mode.Str? && x.mode.s in Modes ==> f.mode == x.mode.s
    ensures !(x.mode.Str? && x.mode.s in Modes) ==> f.mode == "inapp"
    ensures x.cooldown.Num? && x.cooldown.n >= 0 ==> f.cooldown == x.cooldown.n
    ensures !(x.cooldown.Num? && x.cooldown.n >= 0) ==> f.cooldown == 10
    ensures x.refresh.Num? && x.refresh.n >= 10 ==> f.refresh == x.refresh.n
    ensures !(x.refresh.Num? && x.refresh.n >= 10) ==> f.refresh == 60
    ensures f.userEmail == x.userEmail.GetOr("")
    ensures f.smtp == x.smtp.GetOr(DefaultSmtp)
  {
    Form(
      if x.theme.Str? && x.theme.s in Themes then x.theme.s else "auto",
      if x.mode.Str? && x.mode.s in Modes then x.mode.s else "inapp",
      if x.cooldown.Num? && x.cooldown.n >= 0 then x.cooldown.n else 10,
      if x.refresh.Num? && x.refresh.n >= 10 then x.refresh.n else 60,
      x.userEmail.GetOr(""),
      x.smtp.GetOr(DefaultSmtp))
  }

  // ---------------------------------------------------------------------------
  // Panel state and change detection

  datatype Status = Idle | Succeeded | Failed

  /** A value of the snapshot object. */
  datatype Field = Text(text: string) | Number(number: int) | Smtp(smtp: SmtpConfig)

  /** A plain object: property name to value. */
  type Snapshot = map<string, Field>

  /** The panel: the form, the snapshot `initialSettings`, and the two status messages. */
  datatype Panel = Panel(form: Form, initial: Snapshot, saveStatus: Status, testStatus: Status)

  /** The panel before loading: default form, empty snapshot. */
  const Opened := Panel(DefaultForm, map[], Idle, Idle)

  /** The object `{theme, notificationMode, notificationCooldown,
      refreshInterval, userEmail, smtpConfig}` built from the form; the SMTP
      object compares by its JSON text, which is structural equality here. */
  function Current(f: Form): (r: Snapshot)
    ensures r.Keys == {"theme", "notificationMode", "notificationCooldown", "refreshInterval", "userEmail", "smtpConfig"}
  {
    map["theme" := Text(f.theme),
        "notificationMode" := Text(f.mode),
        "notificationCooldown" := Number(f.cooldown),
        "refreshInterval" := Number(f.refresh),
        "userEmail" := Text(f.userEmail),
        "smtpConfig" := Smtp(f.smtp)]
  }

  /** `hasChanges`: some property of the snapshot is missing from the current
      object or has a different value there. */
  predicate HasChanges(p: Panel) {
    var current := Current(p.form);
    exists k :: k in p.initial && (k !in current || p.initial[k] != current[k])
  }

  /** `loadSettings`: a resolved call fills the form with the validated values
      and takes them as the snapshot; a rejected call leaves the default form
      and the empty snapshot and shows the save error. */
  function Load(fetched: Result<Fetched, string>): (r: Panel)
    ensures fetched.Ok? ==> r.form == Normalize(fetched.value) && r.initial == Current(r.form)
    ensures fetched.Err? ==> r == Opened.(saveStatus := Failed)
    ensures WellFormed(r.form)
  {
    match fetched
    case Ok(x) => var f := Normalize(x); Panel(f, Current(f), Idle, Idle)
    case Err(_) => Opened.(saveStatus := Failed)
  }

  // ---------------------------------------------------------------------------
  // Handlers

  /** `handleIntervalChange`: the input's `parseInt` is taken when it is an
      integer from 10 to 3600; anything else is ignored. */
  function IntervalInput(p: Panel, text: string): (r: Panel)
    ensures r == p || r == p.(form := p.form.(refresh := r.form.refresh))
    ensures r != p ==> JsParseInt(text) == Some(r.form.refresh) && 10 <= r.form.refresh <= 3600
    ensures (JsParseInt(text).Some? && 10 <= JsParseInt(text).value <= 3600) ==> r.form.refresh == JsParseInt(text).value
  {
    match JsParseInt(text)
    case Some(v) => if 10 <= v <= 3600 then p.(form := p.form.(refresh := v)) else p
    case None => p
  }

  /** `handleCooldownChange`: the input's `parseInt` is taken when it is an
      integer from 0 to 1440; anything else is ignored. */
  function CooldownInput(p: Panel, text: string): (r: Panel)
    ensures r == p || r == p.(form := p.form.(cooldown := r.form.cooldown))
    ensures r != p ==> JsParseInt(text) == Some(r.form.cooldown) && 0 <= r.form.cooldown <= 1440
    ensures (JsParseInt(text).Some? && 0 <= JsParseInt(text).value <= 1440) ==> r.form.cooldown == JsParseInt(text).value
  {
    match JsParseInt(text)
    case Some(v) => if 0 <= v <= 1440 then p.(form := p.form.(cooldown := v)) else p
    case None => p
  }

  /** `handleResetDefaults`: the default form and cleared statuses; the snapshot is kept. */
  function ResetDefaults(p: Panel): (r: Panel)
    ensures r.form == DefaultForm && r.initial == p.initial
    ensures r.saveStatus == Idle && r.testStatus == Idle
  {
    Panel(DefaultForm, p.initial, Idle, Idle)
  }

  /** The provider names the panel offers. */
  function ProviderNamed(name: string): (r: Option<AppSettings.Provider>)
    ensures r.Some? <==> name in {"gmail", "outlook", "yahoo"}
  {
    match name
    case "gmail" => Some(AppSettings.Gmail)
    case "outlook" => Some(AppSettings.Outlook)
    case "yahoo" => Some(AppSettings.Yahoo)
    case _ => None
  }

  /** `{...prev, ...config}` for a preset, which carries a host, a port and the TLS flag. */
  function MergePreset(prev: SmtpConfig, preset: SmtpConfig): (r: SmtpConfig)
    ensures r.host == preset.host && r.port == preset.port && r.tls == preset.tls
    ensures r.username == prev.username && r.password == prev.password && r.from == prev.from
  {
    prev.(host := preset.host, port := preset.port, tls := preset.tls)
  }

  /** `handleProviderSelect`: a known provider's preset is merged into the
      SMTP object and the test status is cleared; an unknown name changes nothing. */
  function SelectProvider(p: Panel, name: string): (r: Panel)
    ensures ProviderNamed(name).None? ==> r == p
    ensures ProviderNamed(name).Some? ==> r == p.(form := p.form.(smtp := r.form.smtp), testStatus := Idle)
    ensures ProviderNamed(name).Some? ==> r.form.smtp.host == AppSettings.ProviderConfig(ProviderNamed(name).value).host
    ensures ProviderNamed(name).Some? ==> r.form.smtp.port == 587 && r.form.smtp.tls
    ensures r.form.smtp.username == p.form.smtp.username && r.form.smtp.password == p.form.smtp.password
    ensures r.form.smtp.from == p.form.smtp.from
  {
    match ProviderNamed(name)
    case None => p
    case Some(provider) =>
      p.(form := p.form.(smtp := MergePreset(p.form.smtp, AppSettings.ProviderConfig(provider))), testStatus := Idle)
  }

  /** Choosing a provider by name fills in exactly that provider's preset:
      the preset with the user's own name, password and sender address kept,
      which is the preset itself on an SMTP object that has none of them. */
  lemma {:induction false} SelectProviderGivesPreset(p: Panel, name: string)
    requires ProviderNamed(name).Some?
    ensures var preset := AppSettings.ProviderConfig(ProviderNamed(name).value);
            SelectProvider(p, name).form.smtp
            == preset.(username := p.form.smtp.username, password := p.form.smtp.password, from := p.form.smtp.from)
    ensures p.form.smtp.username == "" && p.form.smtp.password == "" && p.form.smtp.from == ""
            ==> SelectProvider(p, name).form.smtp == AppSettings.ProviderConfig(ProviderNamed(name).value)
  {
    var preset := AppSettings.ProviderConfig(ProviderNamed(name).value);
    assert preset == ZeroSmtp.(host := preset.host, port := 587, tls := true);
  }

  /** `handleTestSMTP`: with an empty host, user name or password the test
      fails at once and the back end is not called (`None`); otherwise a test
      message is sent to the user's e-mail address (the second component), and
      `delivered` says whether `SendTestEmail` resolved for that address. */
  function TestSmtp(p: Panel, delivered: string -> bool): (r: (Panel, Option<string>))
    ensures r.1.None? <==> p.form.smtp.host == "" || p.form.smtp.username == "" || p.form.smtp.password == ""
    ensures r.1.None? ==> r.0 == p.(testStatus := Failed)
    ensures r.1.Some? ==> r.1.value == p.form.userEmail
    ensures r.1.Some? ==> r.0 == p.(testStatus := if delivered(p.form.userEmail) then Succeeded else Failed)
  {
    var c := p.form.smtp;
    if c.host == "" || c.username == "" || c.password == "" then (p.(testStatus := Failed), None)
    else (p.(testStatus := if delivered(p.form.userEmail) then Succeeded else Failed), Some(p.form.userEmail))
  }

  /** `a || fallback` for a text property of the snapshot: a missing or empty text gives the fallback. */
  function TextOr(snap: Snapshot, key: string, fallback: string): (r: string)
    ensures key in snap && snap[key].Text? && snap[key].text != "" ==> r == snap[key].text
    ensures !(key in snap && snap[key].Text? && snap[key].text != "") ==> r == fallback
  {
    if key in snap && snap[key].Text? && snap[key].text != "" then snap[key].text else fallback
  }

  /** `a || fallback` for a number property of the snapshot: a missing value or 0 gives the fallback. */
  function NumberOr(snap: Snapshot, key: string, fallback: int): (r: int)
    ensures key in snap && snap[key].Number? && snap[key].number != 0 ==> r == snap[key].number
    ensures !(key in snap && snap[key].Number? && snap[key].number != 0) ==> r == fallback
  {
    if key in snap && snap[key].Number? && snap[key].number != 0 then snap[key].number else fallback
  }

  /** `a || fallback` for the SMTP object: any object is kept. */
  function SmtpOr(snap: Snapshot, key: string, fallback: SmtpConfig): (r: SmtpConfig)
    ensures key in snap && snap[key].Smtp? ==> r == snap[key].smtp
    ensures !(key in snap && snap[key].Smtp?) ==> r == fallback
  {
    if key in snap && snap[key].Smtp? then snap[key].smtp else fallback
  }

  /** `handleCancel` as written: every value comes back from the snapshot
      through `||`, so falsy values (an empty text, the number 0) are
      replaced by the defaults; statuses are cleared. */
  function Cancel(p: Panel): (r: Panel)
    ensures r.initial == p.initial && r.saveStatus == Idle && r.testStatus == Idle
    ensures r.form.theme == TextOr(p.initial, "theme", "auto")
    ensures r.form.mode == TextOr(p.initial, "notificationMode", "inapp")
    ensures r.form.cooldown == NumberOr(p.initial, "notificationCooldown", 10)
    ensures r.form.refresh == NumberOr(p.initial, "refreshInterval", 60)
    ensures r.form.userEmail == TextOr(p.initial, "userEmail", "")
    ensures r.form.smtp == SmtpOr(p.initial, "smtpConfig", DefaultSmtp)
  {
    var s := p.initial;
    Panel(Form(TextOr(s, "theme", "auto"),
               TextOr(s, "notificationMode", "inapp"),
               NumberOr(s, "notificationCooldown", 10),
               NumberOr(s, "refreshInterval", 60),
               TextOr(s, "userEmail", ""),
               SmtpOr(s, "smtpConfig", DefaultSmtp)),
          s, Idle, Idle)
  }

  /** A property of the snapshot when it is present with the right kind of value. */
  function TextIn(snap: Snapshot, key: string, fallback: string): string {
    if key in snap && snap[key].Text? then snap[key].text else fallback
  }

  function NumberIn(snap: Snapshot, key: string, fallback: int): int {
    if key in snap && snap[key].Number? then snap[key].number else fallback
  }

  /** Cancel restoring the snapshot's own values, falling back on the defaults
      only for properties the snapshot does not have. */
  function CancelRestoring(p: Panel): (r: Panel)
    ensures r.initial == p.initial && r.saveStatus == Idle && r.testStatus == Idle
    ensures p.initial == map[] ==> r.form == DefaultForm
    ensures "theme" in p.initial && p.initial["theme"].Text? ==> r.form.theme == p.initial["theme"].text
    ensures !("theme" in p.initial && p.initial["theme"].Text?) ==> r.form.theme == "auto"
    ensures "notificationMode" in p.initial && p.initial["notificationMode"].Text? ==> r.form.mode == p.initial["notificationMode"].text
    ensures !("notificationMode" in p.initial && p.initial["notificationMode"].Text?) ==> r.form.mode == "inapp"
    ensures "notificationCooldown" in p.initial && p.initial["notificationCooldown"].Number? ==> r.form.cooldown == p.initial["notificationCooldown"].number
    ensures !("notificationCooldown" in p.initial && p.initial["notificationCooldown"].Number?) ==> r.form.cooldown == 10
    ensures "refreshInterval" in p.initial && p.initial["refreshInterval"].Number? ==> r.form.refresh == p.initial["refreshInterval"].number
    ensures !("refreshInterval" in p.initial && p.initial["refreshInterval"].Number?) ==> r.form.refresh == 60
    ensures "userEmail" in p.initial && p.initial["userEmail"].Text? ==> r.form.userEmail == p.initial["userEmail"].text
    ensures !("userEmail" in p.initial && p.initial["userEmail"].Text?) ==> r.form.userEmail == ""
    ensures "smtpConfig" in p.initial && p.initial["smtpConfig"].Smtp? ==> r.form.smtp == p.initial["smtpConfig"].smtp
    ensures !("smtpConfig" in p.initial && p.initial["smtpConfig"].Smtp?) ==> r.form.smtp == DefaultSmtp
  {
    var s := p.initial;
    Panel(Form(TextIn(s, "theme", "auto"),
               TextIn(s, "notificationMode", "inapp"),
               NumberIn(s, "notificationCooldown", 10),
               NumberIn(s, "refreshInterval", 60),
               TextIn(s, "userEmail", ""),
               SmtpOr(s, "smtpConfig", DefaultSmtp)),
          s, Idle, Idle)
  }

  /** The snapshot `handleSaveSettings` stores as written: the object sent
      to the back end, which carries the SMTP object as `smtp_config`, with
      `smtpConfig` added. */
  function SavedSnapshotAsWritten(f: Form): (r: Snapshot)
    ensures r.Keys == Current(f).Keys + {"smtp_config"}
    ensures forall k :: k in Current(f) ==> r[k] == Current(f)[k]
  {
    Current(f)["smtp_config" := Smtp(f.smtp)]
  }

  /** `handleSaveSettings` as written: the form goes to the back end as
      `ToSettings(p.form)`; when the call resolves (`saved`) the snapshot
      becomes `SavedSnapshotAsWritten`, and the save status says how it went. */
  function SaveAsWritten(p: Panel, saved: bool): (r: Panel)
    ensures r.form == p.form && r.testStatus == p.testStatus
    ensures saved ==> r.initial == SavedSnapshotAsWritten(p.form) && r.saveStatus == Succeeded
    ensures !saved ==> r == p.(saveStatus := Failed)
  {
    if saved then p.(initial := SavedSnapshotAsWritten(p.form), saveStatus := Succeeded)
    else p.(saveStatus := Failed)
  }

  /** `handleSaveSettings` with the snapshot taken as the form's own object. */
  function Save(p: Panel, saved: bool): (r: Panel)
    ensures r.form == p.form && r.testStatus == p.testStatus
    ensures saved ==> r.initial == Current(p.form) && r.saveStatus == Succeeded
    ensures !saved ==> r == p.(saveStatus := Failed)
  {
    if saved then p.(initial := Current(p.form), saveStatus := Succeeded)
    else p.(saveStatus := Failed)
  }

  // ---------------------------------------------------------------------------
  // Lemmas: load

  /** The values the form would send re-enter it unchanged, when they are well formed. */
  lemma NormalizeKeepsWellFormed(f: Form)
    requires WellFormed(f)
    ensures Normalize(FromSettings(ToSettings(f))) == f
  {
  }

  /** Validating a second time changes nothing. */
  lemma NormalizeIdempotent(x: Fetched)
    ensures Normalize(FromSettings(ToSettings(Normalize(x)))) == Normalize(x)
  {
    NormalizeKeepsWellFormed(Normalize(x));
  }

  /** A form that is saved, stored and loaded again comes back as it was. */
  lemma SavedFormReloads(f: Form)
    requires WellFormed(f)
    ensures Load(Ok(FromSettings(LoadSettings(Stored(ToSettings(f))).0))).form == f
  {
    LoadAfterStore(ToSettings(f));
    NormalizeKeepsWellFormed(f);
  }

  /** The back end's default refresh interval, 0, is shown as 60. */
  lemma DefaultRefreshShownAsSixty()
    ensures Normalize(FromSettings(DefaultSettings)).refresh == 60
    ensures Normalize(FromSettings(DefaultSettings)).cooldown == DefaultSettings.notificationCooldown
  {
  }

  // ---------------------------------------------------------------------------
  // Lemmas: change detection

  /** The current object determines the form. */
  lemma CurrentInjective(f: Form, g: Form)
    requires Current(f) == Current(g)
    ensures f == g
  {
    assert Current(f)["theme"] == Current(g)["theme"];
    assert Current(f)["notificationMode"] == Current(g)["notificationMode"];
    assert Current(f)["notificationCooldown"] == Current(g)["notificationCooldown"];
    assert Current(f)["refreshInterval"] == Current(g)["refreshInterval"];
    assert Current(f)["userEmail"] == Current(g)["userEmail"];
    assert Current(f)["smtpConfig"] == Current(g)["smtpConfig"];
  }

  /** With the snapshot taken from a form `g`, the panel has changes exactly when its form is not `g`. */
  lemma HasChangesIffFormDiffers(p: Panel, g: Form)
    requires p.initial == Current(g)
    ensures HasChanges(p) <==> p.form != g
  {
    var current := Current(p.form);
    if p.form != g {
      if Current(g) == current {
        CurrentInjective(g, p.form);
      }
      var k :| k in Current(g) && Current(g)[k] != current[k];
      assert k in p.initial && (k !in current || p.initial[k] != current[k]);
    } else {
      assert p.initial == current;
    }
  }

  /** A freshly loaded panel, or one whose load failed, has no changes. */
  lemma LoadedPanelIsClean(fetched: Result<Fetched, string>)
    ensures !HasChanges(Load(fetched))
  {
    if fetched.Ok? {
      HasChangesIffFormDiffers(Load(fetched), Load(fetched).form);
    }
  }

  /** Editing the interval of a freshly loaded panel makes it dirty exactly when the value changes. */
  lemma IntervalEditDirtiesIffChanged(x: Fetched, text: string)
    ensures HasChanges(IntervalInput(Load(Ok(x)), text))
            <==> IntervalInput(Load(Ok(x)), text).form.refresh != Normalize(x).refresh
  {
    var p := Load(Ok(x));
    var q := IntervalInput(p, text);
    HasChangesIffFormDiffers(q, p.form);
  }

  // ---------------------------------------------------------------------------
  // Lemmas: handlers

  /** An interval typed as its decimal text, possibly followed by a
      non-digit ("15.9", "30s"), is taken when it is in range. */
  lemma IntervalAcceptsLeadingInteger(p: Panel, n: int, rest: string)
    requires 10 <= n <= 3600
    requires |rest| == 0 || !IsDigit(rest[0])
    ensures IntervalInput(p, FormatInt(n) + rest) == p.(form := p.form.(refresh := n))
  {
    JsParseIntFormatInt(n, rest);
  }

  /** An interval outside 10..3600 is ignored. */
  lemma IntervalRejectsOutOfRange(p: Panel, n: int)
    requires n < 10 || n > 3600
    ensures IntervalInput(p, FormatInt(n)) == p
  {
    JsParseIntFormatInt(n, "");
    assert FormatInt(n) + "" == FormatInt(n);
  }

  /** A cooldown typed as its decimal text is taken when it is in 0..1440, and ignored otherwise. */
  lemma CooldownAcceptsInteger(p: Panel, n: int)
    ensures CooldownInput(p, FormatInt(n))
            == if 0 <= n <= 1440 then p.(form := p.form.(cooldown := n)) else p
  {
    JsParseIntFormatInt(n, "");
    assert FormatInt(n) + "" == FormatInt(n);
  }

  /** The numeric handlers keep the form well formed. */
  lemma InputsKeepWellFormed(p: Panel, text: string)
    requires WellFormed(p.form)
    ensures WellFormed(IntervalInput(p, text).form)
    ensures WellFormed(CooldownInput(p, text).form)
  {
  }

  /** Choosing the same provider twice is choosing it once. */
  lemma SelectProviderIdempotent(p: Panel, name: string)
    ensures SelectProvider(SelectProvider(p, name), name) == SelectProvider(p, name)
  {
  }

  /** The SMTP test never touches the form or the snapshot. */
  lemma TestKeepsForm(p: Panel, delivered: string -> bool)
    ensures TestSmtp(p, delivered).0.form == p.form && TestSmtp(p, delivered).0.initial == p.initial
  {
  }

  /** Resetting a freshly loaded panel leaves it dirty exactly when the loaded form was not the default one. */
  lemma ResetDirtiesIffNotDefault(x: Fetched)
    ensures HasChanges(ResetDefaults(Load(Ok(x)))) <==> Normalize(x) != DefaultForm
  {
    HasChangesIffFormDiffers(ResetDefaults(Load(Ok(x))), Normalize(x));
  }

  // ---------------------------------------------------------------------------
  // Lemmas: cancel

  /** Cancel as written restores a loaded form whose cooldown is not 0. */
  lemma CancelRestoresNonZero(p: Panel, f: Form)
    requires WellFormed(f) && p.initial == Current(f) && f.cooldown != 0
    ensures Cancel(p).form == f
    ensures !HasChanges(Cancel(p))
  {
    HasChangesIffFormDiffers(Cancel(p), f);
  }

  /** Cancel as written turns a saved cooldown of 0 into 10, and the panel is dirty afterwards. */
  lemma CancelLosesZeroCooldown(p: Panel, f: Form)
    requires WellFormed(f) && p.initial == Current(f) && f.cooldown == 0
    ensures Cancel(p).form == f.(cooldown := 10)
    ensures HasChanges(Cancel(p))
  {
    HasChangesIffFormDiffers(Cancel(p), f);
  }

  /** Cancel on a panel whose load failed restores the default form, with both versions. */
  lemma CancelBeforeLoad(p: Panel)
    requires p.initial == map[]
    ensures Cancel(p).form == DefaultForm
    ensures CancelRestoring(p).form == DefaultForm
  {
  }

  /** Restoring cancel gives back exactly the form the snapshot was taken from, and leaves no changes. */
  lemma CancelRestoringIsExact(p: Panel, f: Form)
    requires p.initial == Current(f)
    ensures CancelRestoring(p).form == f
    ensures !HasChanges(CancelRestoring(p))
  {
    HasChangesIffFormDiffers(CancelRestoring(p), f);
  }

  // ---------------------------------------------------------------------------
  // Lemmas: save

  /** After a successful save as written, the panel reports changes whatever
      the form holds: the snapshot's `smtp_config` is never in the current object. */
  lemma SaveAsWrittenIsAlwaysDirty(p: Panel, g: Form)
    ensures HasChanges(SaveAsWritten(p, true).(form := g))
  {
    var q := SaveAsWritten(p, true).(form := g);
    assert "smtp_config" in q.initial && "smtp_config" !in Current(g);
  }

  /** After a successful save the panel has no changes until the form is edited,
      and then has changes exactly when the form differs from the saved one. */
  lemma SaveMarksClean(p: Panel, g: Form)
    ensures !HasChanges(Save(p, true))
    ensures HasChanges(Save(p, true).(form := g)) <==> g != p.form
  {
    HasChangesIffFormDiffers(Save(p, true), p.form);
    HasChangesIffFormDiffers(Save(p, true).(form := g), p.form);
  }

  /** A failed save keeps the snapshot, so the changes stay reported. */
  lemma FailedSaveKeepsChanges(p: Panel)
    ensures HasChanges(Save(p, false)) == HasChanges(p)
    ensures HasChanges(SaveAsWritten(p, false)) == HasChanges(p)
  {
  }
}

=== FILE: text.dfy ===
/** The handful of Go `strings` functions the monitor relies on, over
    `string` = `seq<char>`.  Each is stated by what it returns, and the lemmas
    at the end relate the ones that are used together. */
module Text {
  import opened Outcomes

  /** `pat` occurs in `s` starting at index `i`. */
  predicate OccursAt(s: string, pat: string, i: nat) {
    i + |pat| <= |s| && s[i..i + |pat|] == pat
  }

  /** The first occurrence of `pat` in `s` at or after `from`. */
  function IndexFrom(s: string, pat: string, from: nat): (r: Option<nat>)
    ensures r.Some? ==> from <= r.value && OccursAt(s, pat, r.value)
    ensures r.Some? ==> forall j :: from <= j < r.value ==> !OccursAt(s, pat, j)
    ensures r.None? ==> forall j :: from <= j ==> !OccursAt(s, pat, j)
    decreases |s| - from
  {
    if from + |pat| > |s| then None
    else if s[from..from + |pat|] == pat then Some(from)
    else IndexFrom(s, pat, from + 1)
  }

  /** `strings.Index`, with `None` for Go's -1. */
  function IndexOf(s: string, pat: string): (r: Option<nat>)
    ensures r.Some? ==> OccursAt(s, pat, r.value)
    ensures r.Some? ==> forall j: nat :: j < r.value ==> !OccursAt(s, pat, j)
    ensures r.None? ==> forall j :: !OccursAt(s, pat, j)
  {
    IndexFrom(s, pat, 0)
  }

  /** `strings.Contains`. */
  predicate Contains(s: string, pat: string) {
    IndexOf(s, pat).Some?
  }

  /** `strings.HasPrefix`. */
  predicate HasPrefix(s: string, prefix: string) {
    |prefix| <= |s| && s[..|prefix|] == prefix
  }

  /** `strings.TrimPrefix`: drops `prefix` once when `s` starts with it. */
  function TrimPrefix(s: string, prefix: string): (r: string)
    ensures HasPrefix(s, prefix) ==> prefix + r == s
    ensures !HasPrefix(s, prefix) ==> r == s
  {
    if HasPrefix(s, prefix) then s[|prefix|..] else s
  }

  /** `strings.TrimSuffix` for a one-character suffix. */
  function TrimSuffixChar(s: string, c: char): (r: string)
    ensures |s| > 0 && s[|s| - 1] == c ==> r + [c] == s
    ensures !(|s| > 0 && s[|s| - 1] == c) ==> r == s
  {
    if |s| > 0 && s[|s| - 1] == c then s[..|s| - 1] else s
  }

  /** `strings.Split(s, sep)[0]`: the text before the first `sep`, or all of `s`. */
  function Before(s: string, sep: string): (r: string)
    requires sep != ""
    ensures Contains(s, sep) ==> r == s[..IndexOf(s, sep).value]
    ensures !Contains(s, sep) ==> r == s
    ensures !Contains(r, sep)
  {
    match IndexOf(s, sep)
    case Some(i) =>
      assert forall j :: OccursAt(s[..i], sep, j) ==> OccursAt(s, sep, j);
      s[..i]
    case None => s
  }

  /** The text after the first `sep`, or "" when there is none. */
  function After(s: string, sep: string): (r: string)
    requires sep != ""
    ensures Contains(s, sep) ==> s == s[..IndexOf(s, sep).value] + sep + r
    ensures !Contains(s, sep) ==> r == ""
  {
    match IndexOf(s, sep)
    case Some(i) =>
      assert s == s[..i] + s[i..i + |sep|] + s[i + |sep|..];
      s[i + |sep|..]
    case None => ""
  }

  /** `strings.Split(s, "\n")`: the lines of `s`; `n` newlines give `n + 1` lines. */
  function Lines(s: string): (r: seq<string>)
    ensures |r| >= 1
    decreases |s|
  {
    if |s| == 0 then [""]
    else
      var rest := Lines(s[1..]);
      if s[0] == '\n' then [""] + rest
      else [[s[0]] + rest[0]] + rest[1..]
  }

  /** Every line ends with a newline: the accumulation `body += line + "\n"`. */
  function Unlines(ls: seq<string>): string
  {
    if |ls| == 0 then "" else ls[0] + "\n" + Unlines(ls[1..])
  }

  /** Whitespace as Go's `unicode.IsSpace` defines it. */
  predicate IsSpace(c: char) {
    c == ' ' || c == '\t' || c == '\n' || c == '\r' || c == '\U{0B}' || c == '\U{0C}'
    || c == '\U{85}' || c == '\U{A0}' || c == '\U{1680}'
    || ('\U{2000}' <= c <= '\U{200A}')
    || c == '\U{2028}' || c == '\U{2029}' || c == '\U{202F}' || c == '\U{205F}' || c == '\U{3000}'
  }

  function TrimLeftSpace(s: string): (r: string)
    ensures |r| <= |s| && r == s[|s| - |r|..]
    ensures |r| > 0 ==> !IsSpace(r[0])
    ensures forall i :: 0 <= i < |s| - |r| ==> IsSpace(s[i])
  {
    if |s| > 0 && IsSpace(s[0]) then TrimLeftSpace(s[1..]) else s
  }

  function TrimRightSpace(s: string): (r: string)
    ensures |r| <= |s| && r == s[..|r|]
    ensures |r| > 0 ==> !IsSpace(r[|r| - 1])
    ensures forall i :: |r| <= i < |s| ==> IsSpace(s[i])
  {
    if |s| > 0 && IsSpace(s[|s| - 1]) then TrimRightSpace(s[..|s| - 1]) else s
  }

  /** `strings.TrimSpace`: drops leading and trailing whitespace. */
  function TrimSpace(s: string): (r: string)
    ensures |r| > 0 ==> !IsSpace(r[0]) && !IsSpace(r[|r| - 1])
  {
    TrimLeftSpace(TrimRightSpace(s))
  }

  /** `strings.ReplaceAll(s, " ", "")`: every ASCII space removed, the rest kept in order. */
  function RemoveSpaces(s: string): (r: string)
    ensures ' ' !in r
    ensures |r| <= |s|
    ensures forall c :: c != ' ' ==> multiset(r)[c] == multiset(s)[c]
  {
    if |s| == 0 then ""
    else
      assert s == [s[0]] + s[1..];
      if s[0] == ' ' then RemoveSpaces(s[1..]) else [s[0]] + RemoveSpaces(s[1..])
  }

  // ---------------------------------------------------------------------------
  // Lemmas

  /** Any occurrence that is not preceded by another one is the one IndexOf finds. */
  lemma IndexOfIsFirst(s: string, pat: string, i: nat)
    requires OccursAt(s, pat, i)
    requires forall j: nat :: j < i ==> !OccursAt(s, pat, j)
    ensures IndexOf(s, pat) == Some(i)
  {
  }

  /** Searching a prefix `s[..p]` finds what searching `s` finds, when it fits. */
  lemma {:induction false} IndexOfPrefix(s: string, pat: string, p: nat)
    requires p <= |s|
    ensures IndexOf(s, pat).Some? && IndexOf(s, pat).value + |pat| <= p
            ==> IndexOf(s[..p], pat) == IndexOf(s, pat)
    ensures (IndexOf(s, pat).None? || IndexOf(s, pat).value + |pat| > p)
            ==> IndexOf(s[..p], pat).None?
  {
    var t := s[..p];
    forall j: nat | OccursAt(t, pat, j)
      ensures OccursAt(s, pat, j)
    {
      assert t[j..j + |pat|] == s[j..j + |pat|];
    }
    match IndexOf(s, pat)
    case Some(k) =>
      if k + |pat| <= p {
        assert t[k..k + |pat|] == s[k..k + |pat|];
        IndexOfIsFirst(t, pat, k);
      }
    case None =>
  }

  /** Splitting on newlines and re-terminating every line gives back the text plus one newline. */
  lemma {:induction false} UnlinesLines(s: string)
    ensures Unlines(Lines(s)) == s + "\n"
    decreases |s|
  {
    if |s| == 0 {
    } else {
      var rest := Lines(s[1..]);
      UnlinesLines(s[1..]);
      if s[0] == '\n' {
        assert Lines(s) == [""] + rest;
        assert Unlines(Lines(s))[1..] == Unlines(rest);
        assert s == [s[0]] + s[1..];
      } else {
        var first := [s[0]] + rest[0];
        assert Lines(s) == [first] + rest[1..];
        assert ([first] + rest[1..])[1..] == rest[1..];
        assert Unlines(rest) == rest[0] + "\n" + Unlines(rest[1..]);
        calc {
          Unlines(Lines(s));
          first + "\n" + Unlines(rest[1..]);
          [s[0]] + (rest[0] + "\n" + Unlines(rest[1..]));
          [s[0]] + (s[1..] + "\n");
        }
        assert s == [s[0]] + s[1..];
      }
    }
  }

  /** No line of `Lines(s)` contains a newline. */
  lemma {:induction false} LinesHaveNoNewline(s: string)
    ensures forall k :: 0 <= k < |Lines(s)| ==> '\n' !in Lines(s)[k]
    decreases |s|
  {
    if |s| > 0 {
      LinesHaveNoNewline(s[1..]);
    }
  }

  /** A newline-free text followed by a newline is the first line. */
  lemma {:induction false} LinesAfterLine(a: string, b: string)
    requires '\n' !in a
    ensures Lines(a + "\n" + b) == [a] + Lines(b)
    decreases |a|
  {
    if |a| == 0 {
      assert a + "\n" + b == ['\n'] + b;
      assert (a + "\n" + b)[1..] == b;
    } else {
      var s := a + "\n" + b;
      assert s[1..] == a[1..] + "\n" + b;
      LinesAfterLine(a[1..], b);
      assert [a[0]] + a[1..] == a;
    }
  }

  /** A trailing whitespace character does not change `TrimSpace`. */
  lemma TrimSpaceIgnoresTrailingSpace(s: string, c: char)
    requires IsSpace(c)
    ensures TrimSpace(s + [c]) == TrimSpace(s)
  {
    assert (s + [c])[..|s|] == s;
  }

  /** `RemoveSpaces` distributes over concatenation. */
  lemma {:induction false} RemoveSpacesAppend(a: string, b: string)
    ensures RemoveSpaces(a + b) == RemoveSpaces(a) + RemoveSpaces(b)
    decreases |a|
  {
    if |a| > 0 {
      assert (a + b)[0] == a[0];
      assert (a + b)[1..] == a[1..] + b;
      RemoveSpacesAppend(a[1..], b);
    } else {
      assert a + b == b;
    }
  }

  /** A text without spaces is left as it is. */
  lemma {:induction false} RemoveSpacesNoSpace(s: string)
    requires ' ' !in s
    ensures RemoveSpaces(s) == s
    decreases |s|
  {
    if |s| > 0 {
      assert s[0] != ' ';
      assert ' ' !in s[1..];
      RemoveSpacesNoSpace(s[1..]);
      assert [s[0]] + s[1..] == s;
    }
  }

  /** Removing spaces twice is removing them once. */
  lemma RemoveSpacesIdempotent(s: string)
    ensures RemoveSpaces(RemoveSpaces(s)) == RemoveSpaces(s)
  {
    RemoveSpacesNoSpace(RemoveSpaces(s));
  }
}
